=== FILE: README.md ===
# Student manager: the student lifecycle and the student form, in Dafny

This project models the two logic cores of a small student-management web application.

- **The server's students router.** It has six routes:
  - `GET /` lists the students;
  - `GET /majors` lists the majors;
  - `POST /add` adds a student;
  - `DELETE /:id` deletes one;
  - `GET /:id` reads one;
  - `POST /modify/:id` changes one.

  The upload middleware runs in front of `POST /add` and `POST /modify/:id`. It applies a file filter, a 5 MiB limit and a generated storage name. Each route is a pure function from a request and a `Store` to a `Response` and a new `Store`. The `Store` holds:
  - the `students` table as a map from id to `Row`;
  - the upload directory as a map from file name to bytes;
  - the `major` table;
  - the auto-increment counter.

  A failing query is an input flag. The clock and random readings behind a storage name are a `Stamp`. Before a file is stored, its generated name must be free.
- **The student form of the add and update pages.** This covers the three event handlers, the validation chain, the trimmed multipart payload and the image rule. It also covers the update page's loading of a student and its prefill of the form.

Most of the proofs are about how a row and its image file stay coupled:
- every route keeps the two consistent, except when a query fails between the unlink and the write;
- a failed add orphans its upload;
- a failed UPDATE after a new upload leaves the row naming a deleted file;
- reads never fail on such a row.

Other proofs connect the client and the server:
- the page never sends what the server answers with 400;
- the two image rules differ in both directions;
- a student added, reloaded and saved untouched is sent again with the same fields and no image.

The model follows the code where it departs from a cleaner lifecycle:
- `POST /modify/:id` unlinks the old image right after its SELECT, before the UPDATE runs;
- `DELETE /:id` unlinks before the DELETE runs;
- both answer success for an id that has no row.

Layout, one module per file:
- `wrappers.dfy` — `Option`.
- `text.dfy`:
  - JavaScript's `trim` with its whitespace set;
  - substring search (an unanchored regular-expression test, `includes`);
  - ASCII `toLowerCase`;
  - decimal rendering of a number.
- `wire.dfy` — bytes, uploaded files, the fields of a multipart request, and the 5 MiB constant.
- `ordering.dfy` — the orders behind `ORDER BY StdID` and `ORDER BY MajorCode`.
- `upload.dfy`:
  - POSIX `path.extname`;
  - the file filter and the size limit;
  - the storage name;
  - the middleware step `Receive`.
- `store.dfy` — the store, its coupling predicates, and how each primitive step affects consistency.
- `routes.dfy` — the six routes.
- `lifecycle.dfy` — properties that span several routes.
- `studentform.dfy` — the form shared by the add page and the update page. The update page's handlers are the same code as the add page's, so the same members model both:
  - `handleChange`, client/src/components/UpdateStudent.js:72-78;
  - `handleImageChange`, client/src/components/UpdateStudent.js:80-109;
  - `handleSubmit` with its validation and payload, client/src/components/UpdateStudent.js:111-156.
- `updatestudent.dfy` — what the update page adds: load and prefill.
- `interop.dfy` — how the pages and the server fit together.

## Model

| member | source | states |
|---|---|---|
| Text.Trim | client/src/components/AddStudent.js:112-116 | the result is the input with a blank prefix and a blank suffix cut off; it is empty exactly when the input is all whitespace; otherwise it neither starts nor ends with whitespace |
| Text.TrimmedFromIsTrim | client/src/components/AddStudent.js:112-116 | any string cut out of the input between two blank margins that neither starts nor ends with whitespace is the trimmed value, so that description determines `trim` completely |
| Text.TrimIdempotent | client/src/components/AddStudent.js:112-116 | trimming a trimmed value changes nothing |
| Text.TrimKeepsVisible | client/src/components/AddStudent.js:93-114 | a non-whitespace character such as '@' or '.' is in the trimmed value exactly when it is in the original |
| Text.Occurs | server/routes/students.js:27-29 | the regular-expression test for a literal word is true exactly when the word occurs at some position |
| Text.LowerAscii | server/routes/students.js:29 | lower-casing keeps the length and lower-cases each character |
| Text.LowerAsciiKeepsLower | server/routes/students.js:29 | text without capital letters is unchanged by lower-casing |
| Text.LowerAsciiIdempotent | server/routes/students.js:29 | lower-casing twice is lower-casing once |
| Text.Decimal | server/routes/students.js:18 | a number is rendered as a non-empty run of digits without a leading zero |
| Text.DecimalRoundTrip | server/routes/students.js:18 | reading back the rendered digits gives the number |
| Ordering.SortedCodes | server/routes/students.js:83 | the major codes each appear once, in strictly increasing code-point order |
| Ordering.SortedIds | server/routes/students.js:45 | the student ids each appear once, in strictly increasing order |
| Upload.LastSegment | server/routes/students.js:18 | the last path segment ends the path and holds no '/' |
| Upload.SegmentExt | server/routes/students.js:18 | a segment's extension is empty exactly when the segment has no '.' after its first character or is ".."; otherwise it starts with its only dot, is shorter than the segment and ends it |
| Upload.ExtName | server/routes/students.js:18 | `path.extname` is empty exactly when the last segment, once trailing slashes are removed, has no extension by the segment rule; otherwise it is a single dot followed by dot-free text; it holds no '/' and ends the name once trailing slashes are removed |
| Upload.StoredName | server/routes/students.js:17-20 | the storage name ends with the original name's extension |
| Upload.StoredNameStartsWithDigit | server/routes/students.js:18 | the storage name starts with a digit of the clock reading, so it is never a hidden file |
| Upload.StoredNameKeepsExtension | server/routes/students.js:18 | `path.extname` of the storage name equals `path.extname` of the original name |
| Upload.StoredNameInjective | server/routes/students.js:18 | for the same extension, different clock or random readings give different storage names |
| Upload.Receive | server/routes/students.js:23-35 | no file leaves the directory unchanged; a file is refused exactly when its type or lower-cased extension fails the pattern or it exceeds 5 MiB, and then nothing is left on disk; otherwise it is written under its storage name, which was free (the name must be free for every file the filter passes) |
| Routes.Unlink | server/routes/students.js:134-139 | the file is removed when present, and every other file is kept with its contents |
| Routes.ListEntry | server/routes/students.js:55-75 | an entry shows the row's fields and the major's description; it shows the image exactly when the row names a file that is present and readable, and otherwise shows null and `hasImage` false |
| Routes.ListStudents | server/routes/students.js:39-79 | a failed query answers 500 "Database error"; otherwise every row appears once, by increasing id, shown as above; an unreadable or missing file never makes the request fail |
| Routes.ListMajors | server/routes/students.js:82-91 | a failed query answers 500; otherwise every major appears once with its description, in increasing code order |
| Routes.AddStudent | server/routes/students.js:94-118 | a refused upload never reaches the handler and is answered 500 "Something went wrong!" by the application's error handler, with nothing changed; otherwise the upload stays on disk whatever follows; a missing field answers 400 and a failed INSERT answers 500, with the table unchanged in both cases; success adds exactly one row, under the fresh id it returns, holding the submitted fields and the storage name or NULL, and no other row changes |
| Routes.DeleteStudent | server/routes/students.js:121-153 | a failed SELECT changes nothing; after it, the only file that can go is the one the row names, and it goes even when the DELETE then fails; success removes exactly that row; an id without a row changes nothing and is still answered "Student deleted successfully!" |
| Routes.GetStudent | server/routes/students.js:156-191 | the answer is an error exactly when the query fails (500) or the id has no row (404 "Student not found"); otherwise it returns the row's fields and the major's description; the image is absent for a NULL profile, the bytes and true for a present file, and null and false for a missing file |
| Routes.ModifyStudent | server/routes/students.js:194-248 | a refused upload changes nothing; a missing field answers 400 before any query and a failed SELECT answers 500, the upload staying on disk in both cases; a failed UPDATE leaves every row as it was; success writes the five fields, and the new storage name only when a file came; an id without a row changes no row and is still answered with success |
| Routes.Update | server/routes/students.js:212-246 | after the SELECT, a new upload removes the old file before the UPDATE runs, whatever the UPDATE's outcome; a failed UPDATE keeps every row; a successful one writes the five fields, and the new storage name only when a file came |
| Routes.ModifyFileEffects | server/routes/students.js:212-220 | without a new image no file goes; with one, the only file that can go is the one the row named before, and once the SELECT has succeeded it is gone whether or not the UPDATE then succeeds |
| Lifecycle.AddThenGet | server/routes/students.js:94-191 | after a successful add, `GET /:id` of the returned id answers the submitted fields, the major's description, and the uploaded bytes if a file came |
| Lifecycle.AddThenDeleteRestores | server/routes/students.js:94-153 | deleting what a successful add created gives back the table and the upload directory as they were |
| Lifecycle.DeleteThenGet | server/routes/students.js:121-191 | after a successful delete, `GET /:id` answers 404 and the student's file is gone |
| Lifecycle.DeleteIdempotent | server/routes/students.js:121-153 | a second delete of the same id changes nothing and is answered with the same success |
| Lifecycle.ModifyThenGet | server/routes/students.js:156-248 | after a successful modify of an existing row, `GET /:id` answers the new fields, and the new bytes when a file came or else the old image; the only case set aside is a row that already names the storage name of the new upload |
| Lifecycle.ModifyOverOwnNameDangles | server/routes/students.js:212-246 | in that set-aside case the modify still answers success, but the unlink of the "old" file removes the new upload and the row names a missing file |
| Lifecycle.AddOrphansOnlyItsUpload | server/routes/students.js:94-118 | after any add, a file no row names was already unnamed before, or is the add's own upload |
| Lifecycle.FailedAddOrphansUpload | server/routes/students.js:94-112 | an add that answers 400 or whose INSERT fails leaves its stored upload on disk with no row naming it |
| Lifecycle.DeleteOrphansNothing | server/routes/students.js:121-153 | a delete never leaves a newly unnamed file |
| Lifecycle.ModifyOrphansOnlyItsUpload | server/routes/students.js:194-248 | after any modify, a file no row names was already unnamed before, or is the modify's own upload |
| Lifecycle.FailedUpdateLeavesDangling | server/routes/students.js:212-244 | with a new image and a failing UPDATE, the answer is 500, the row still names its old file, which is gone, and the new upload belongs to nobody |
| Lifecycle.FailedDeleteLeavesDangling | server/routes/students.js:132-148 | when the DELETE fails, the row stays and names a file that is gone |
| Lifecycle.AddKeepsConsistent | server/routes/students.js:94-118 | every add, failed or not, keeps each named file present and owned by one row |
| Lifecycle.InsertKeepsConsistent | server/routes/students.js:103-116 | the row a successful add inserts names no file or its own fresh upload, so consistency is kept |
| Lifecycle.DeleteKeepsConsistent | server/routes/students.js:121-153 | a delete keeps the store consistent, whether its queries succeed or fail, unless the DELETE fails after the row's file was unlinked |
| Lifecycle.ModifyKeepsConsistent | server/routes/students.js:194-248 | a modify keeps the store consistent, whether its queries succeed or fail, unless the UPDATE fails after a new upload made the handler unlink the row's old file |
| Lifecycle.FailedUpdateKeepsConsistent | server/routes/students.js:212-246 | a failed UPDATE that unlinked nothing (no new image, no such row, or a row without a file) leaves a consistent store |
| StudentForm.HandleChange | client/src/components/AddStudent.js:35-41 | the named input takes the new value; every other input, the image and the error line are unchanged |
| StudentForm.HandleChangeUndo | client/src/components/AddStudent.js:35-41 | typing the old value back restores the page |
| StudentForm.HandleChangeCommutes | client/src/components/AddStudent.js:35-41 | changes to two different inputs commute |
| StudentForm.HandleImageChange | client/src/components/AddStudent.js:43-72 | no file changes nothing; over 5 MiB sets "Image size must be less than 5MB" (the size is checked first, and exactly 5 MiB passes); a type outside the four listed sets "Only JPEG, PNG, and GIF images are allowed"; on refusal the image is unchanged; on acceptance the image is selected and the error cleared; the text inputs never change |
| StudentForm.HandlersKeepImageChecked | client/src/components/AddStudent.js:35-72 | both change handlers keep the selected image one the page's rule accepts |
| StudentForm.IncludesChar | client/src/components/AddStudent.js:93 | `includes` of a one-character string is membership of that character |
| StudentForm.FailsIffBroken | client/src/components/AddStudent.js:78-106 | each `if` of the chain, as written with `trim` and `includes`, fires exactly when its check is broken |
| StudentForm.FirstFailure | client/src/components/AddStudent.js:78-106 | the search finds nothing exactly when every check holds; otherwise it finds the first broken check |
| StudentForm.Validate | client/src/components/AddStudent.js:78-106 | no message exactly when all six checks hold; otherwise the message of the first broken check, in the order first name, last name, email present, email shape, major, address |
| StudentForm.ValidateAcceptsExactly | client/src/components/AddStudent.js:78-106 | a form passes exactly when the names, the email and the address each hold a visible character, the email holds an '@' and a '.', and a major is chosen |
| StudentForm.FirstBrokenUnique | client/src/components/AddStudent.js:78-106 | at most one check is the first broken one |
| StudentForm.ValidateNamesTheCheck | client/src/components/AddStudent.js:78-106 | the message shown identifies the first broken check, since no two checks share a message |
| StudentForm.BlankFirstNameReportedFirst | client/src/components/AddStudent.js:78-81 | a whitespace-only first name is reported as "First name is required" before anything else |
| StudentForm.MissingAtReported | client/src/components/AddStudent.js:78-96 | with both names and the email filled in, an email without '@' is reported as "Please enter a valid email address" |
| StudentForm.Payload | client/src/components/AddStudent.js:111-119 | the major and the image go unchanged; each of the four text fields is the value typed with its blank margins cut off and no whitespace left at either end (which determines it, by Text.TrimmedFromIsTrim), and is empty exactly when the value typed was all whitespace |
| StudentForm.PayloadOfValidForm | client/src/components/AddStudent.js:78-119 | the payload of a valid form has no empty field and no field that starts or ends with whitespace, and its email keeps its '@' and '.' |
| StudentForm.PayloadStable | client/src/components/AddStudent.js:111-116 | building a payload from a payload gives it back |
| StudentForm.HandleSubmit | client/src/components/AddStudent.js:74-119 | nothing is sent exactly when some check is broken, and then the error line shows the first broken check's message and the form is kept; otherwise the error is cleared and the payload of the form is sent |
| UpdateStudent.OrEmpty | client/src/components/UpdateStudent.js:51-55 | `x || ""` is empty exactly when the column is falsy (missing, null or ""); a present column comes through as it is |
| UpdateStudent.Prefill | client/src/components/UpdateStudent.js:50-57 | each input is filled from its column, or with "" when the column is missing or null, and no image is selected |
| UpdateStudent.Load | client/src/components/UpdateStudent.js:30-70 | a rejected request shows "Failed to load student data. Please try again."; a reply carrying `error` shows it; in both cases the form and the `student` state stay as the previous render left them; otherwise the form is prefilled and the student set, and the error line is cleared, or set to the load message when the majors request fails |
| UpdateStudent.FormShownOnlyForFetched | client/src/components/UpdateStudent.js:185-199 | after loading, the form is on screen exactly when a student is held, which is when this load fetched one or an earlier load had |
| UpdateStudent.PrefillImageChecked | client/src/components/UpdateStudent.js:50-57 | a freshly filled form satisfies the page's image rule |
| UpdateStudent.UntouchedEditSendsNoImage | client/src/components/UpdateStudent.js:148-156 | saving a freshly loaded student untouched sends no image part, the stored major, and each of the four text columns ("" when missing) trimmed |
| Interop.SentPassesServerCheck | server/routes/students.js:99-101 | a payload the page sends always passes the server's required-field check |
| Interop.ServerLaxerThanPage | server/routes/students.js:99-101 | the server takes a whitespace-only first name and an email without '@', both of which the page refuses |
| Interop.PayloadRevalidates | client/src/components/AddStudent.js:111-116 | the payload of a valid form is itself a valid form with the same payload |
| Interop.PageImageMeetsServerType | client/src/components/AddStudent.js:47-57 | a file the page accepts is within the server's limit and its type passes the server's pattern, so the server accepts it exactly when its extension passes |
| Interop.PageTakesWhatServerRefuses | server/routes/students.js:26-35 | a PNG of at most 5 MiB named `notes.txt` is accepted by the page and refused by the server |
| Interop.ServerTakesWhatPageRefuses | client/src/components/AddStudent.js:53-57 | an `image/x-png` named `logo.png` is accepted by the server and refused by the page |
| Interop.LoadFromServer | client/src/components/UpdateStudent.js:36-57 | against the server, on the freshly mounted page, the form is filled with the stored row exactly when the query succeeds and the row exists; otherwise the page's own load message shows, never the server's `error` |
| Interop.AddThenEditUntouched | client/src/components/UpdateStudent.js:30-156 | a student added from a valid page, reloaded in the update page and saved untouched is sent again with the same fields and no image |

## Left out

- StudentForm.HandleSubmit: the model covers the submit handler, not the browser's own constraint check that runs before it. Every input is marked `required` (client/src/components/AddStudent.js:154, 168, 182, 195, 215; client/src/components/UpdateStudent.js:216, 229, 242, 254, 274), and the email input has `type="email"` (AddStudent.js:177, UpdateStudent.js:237). So an empty field never reaches the handler, and an email such as "a b@c.d", which passes all six checks modelled here, is stopped by the browser and not sent.
- SQL and MySQL. Queries are map operations with a failure flag per query. The `ORDER BY MajorCode` order is taken as code-point order, and the `LEFT JOIN ... ON s.Major = m.MajorCode` that supplies a student's major description (server/routes/students.js:44, 162) is taken as an exact key lookup (`DescriptionOf`). The real order and match depend on the column's collation, which by MySQL default ignores case and trailing spaces.
- The URL `:id` is taken as a natural number. The coercion of other strings by the database is not modelled.
- Auto-increment values are not consumed by a failed INSERT here. A real MySQL may skip them.
- Files are carried as bytes. The base64 text that `GET /` and `GET /:id` send is not modelled.
- Routes.GetStudent: the read of an existing file in `GET /:id` (server/routes/students.js:181) has no `try`. It runs inside the database callback, so a failing read is an uncaught exception that stops the server process. That failure is not modelled; only the missing file is.
- Text.LowerAscii: `toLowerCase` is modelled on ASCII letters only.
- Text.Trim: the whitespace set is JavaScript's. Dafny's characters are Unicode scalar values, while JavaScript strings are UTF-16 code units. `trim` agrees on both, because every whitespace character lies in the Basic Multilingual Plane and no surrogate is whitespace.
- `fs.unlink` runs without waiting. Here it takes effect at once, and its own failure is not modelled.
- One upload directory is assumed. Multer writes to `process.env.UPLOAD_DIR || './images'` relative to the working directory (server/routes/students.js:11). The handlers read and unlink under `path.join(__dirname, '..', process.env.UPLOAD_DIR || 'images')` (lines 57, 134, 179, 214). The two coincide only when the server runs from `server/` with a relative `UPLOAD_DIR`; otherwise uploads are never found again, and the model does not cover that.
- Upload.FreshFor: a storage name that is already taken is not modelled. Multer generates the name and opens the file for writing, truncating any existing file, as soon as the filter passes the file. When the size limit then fires, it unlinks that file. So an oversized upload whose generated name collides with a stored file destroys that file. The model requires the name to be free whenever the filter passes, oversized or not.
- The update page loads its student from `${process.env.REACT_APP_API_URL}/api/students/${id}` (client/src/components/UpdateStudent.js:36), while every other request uses a relative `/api/...` URL. Interop.LoadFromServer and Interop.AddThenEditUntouched assume that `REACT_APP_API_URL` names the server's origin, so that this GET reaches `GET /:id`. If it is unset, the URL becomes `undefined/api/students/...`, relative to the page, and never reaches the route.
- Creating the upload directory is not modelled. Neither is a multipart request with several `image` parts.
- `Date.now()` and `Math.random()` are replaced by a `Stamp` supplied by the caller. The storage name built from it is required to be free. Rounding of the random number is not modelled; the `Stamp` holds the rounded value.
- The `Profile` column is a non-empty file name or NULL. An empty-string `Profile` is not modelled.
- Only the route handlers are modelled, not the concurrency between requests.
- For the client, these are not modelled:
  - the `loading`/`updating` flags;
  - the image preview and `FileReader`;
  - the `currentImage` state;
  - the majors drop-down contents;
  - navigation after a successful save;
  - the error text shown after a failed save;
  - the add page's majors request.
- The application bootstrap is not part of this model: CORS, static files, the 404 handler, and the database connection. The one exception is the error handler's answer to a refused upload.
- The students list page is not part of this model.

=== FILE: interop.dfy ===
/** How the pages and the server fit together: what the pages send always passes
    the server's field check but not the other way round, how the two image rules
    differ, and what the update page makes of the server's `GET /:id` answers. */
module Interop {
  import opened Wrappers
  import opened Text
  import opened Wire
  import opened Upload
  import opened Store
  import opened Routes
  import opened Lifecycle
  import opened StudentForm
  import opened UpdateStudent

  // ----- fields -----

  /** A payload the page sends passes the server's `!fname || ... || !address`
      check, so a page-validated request is never answered 400. */
  lemma SentPassesServerCheck(p: Page)
    requires HandleSubmit(p).Sent?
    ensures RequiredPresent(HandleSubmit(p).payload)
  {
    PayloadOfValidForm(p.form);
  }

  /** The server alone is laxer: it takes a whitespace-only first name and an
      email without '@', both of which the page refuses. */
  lemma ServerLaxerThanPage()
    ensures var s := Submission(" ", "Doe", "jdoe", "CS", "1 Main St", None);
      && RequiredPresent(s)
      && Validate(Form(s.fname, s.lname, s.email, s.major, s.address, s.image)) == Some(FnameRequired)
      && Validate(Form("Jane", s.lname, s.email, s.major, s.address, s.image)) == Some(EmailInvalid)
  {
    var s := Submission(" ", "Doe", "jdoe", "CS", "1 Main St", None);
    BlankFirstNameReportedFirst(Form(s.fname, s.lname, s.email, s.major, s.address, s.image));
    var f := Form("Jane", s.lname, s.email, s.major, s.address, s.image);
    assert !Blank(f.fname) by { assert !IsSpace(f.fname[0]); }
    assert !Blank(f.lname) by { assert !IsSpace(f.lname[0]); }
    assert !Blank(f.email) by { assert !IsSpace(f.email[0]); }
    MissingAtReported(f);
  }

  /** The payload of a valid form is itself a valid form, and sends the same
      fields again. */
  lemma PayloadRevalidates(f: Form)
    requires Validate(f).None?
    ensures var s := Payload(f);
      var g := Form(s.fname, s.lname, s.email, s.major, s.address, s.image);
      Validate(g).None? && Payload(g) == s
  {
    var s := Payload(f);
    var g := Form(s.fname, s.lname, s.email, s.major, s.address, s.image);
    ValidateAcceptsExactly(f);
    PayloadOfValidForm(f);
    PayloadStable(f);
    TrimIdempotent(f.fname);
    TrimIdempotent(f.lname);
    TrimIdempotent(f.email);
    TrimIdempotent(f.address);
    ValidateAcceptsExactly(g);
  }

  // ----- images -----

  /** A file the page takes is within the server's size limit and its type passes
      the server's pattern; only the extension of its name is left to decide. */
  lemma PageImageMeetsServerType(f: FileBlob)
    requires ClientAccepts(f)
    ensures WithinLimit(f) && ImagePattern(f.mimeType)
    ensures Acceptable(f) <==> ImagePattern(LowerAscii(ExtName(f.name)))
  {
    TypeHasImageWord(f.mimeType);
  }

  /** Each of the page's four types holds one of the server's image words. */
  lemma TypeHasImageWord(m: string)
    requires m in AllowedTypes
    ensures ImagePattern(m)
  {
    assert m == AllowedTypes[0] || m == AllowedTypes[1] || m == AllowedTypes[2] || m == AllowedTypes[3];
    assert IsSuffix(m[6..], m);
    if m == AllowedTypes[0] {
      assert m[6..] == "jpeg";
      EndingOccurs("jpeg", m);
    } else if m == AllowedTypes[1] {
      assert m[6..] == "jpg";
      EndingOccurs("jpg", m);
    } else if m == AllowedTypes[2] {
      assert m[6..] == "png";
      EndingOccurs("png", m);
    } else {
      assert m[6..] == "gif";
      EndingOccurs("gif", m);
    }
  }

  /** The two rules differ both ways. The page takes a PNG named `notes.txt`,
      which the server refuses for its extension... */
  lemma PageTakesWhatServerRefuses(f: FileBlob)
    requires f.name == "notes.txt" && f.mimeType == "image/png" && f.Size() <= MaxImageBytes
    ensures ClientAccepts(f) && !Acceptable(f)
  {
    assert f.mimeType == AllowedTypes[2];
    assert f.name == "notes" + ".txt";
    PlainExtension("notes", ".txt");
    NoImageWord(".txt");
  }

  /** A name made of a plain stem and a lower-case extension: `path.extname`
      gives the extension back, and lower-casing leaves it as it is. */
  lemma PlainExtension(stem: string, e: string)
    requires stem != [] && stem[0] != '.' && '.' !in stem && '/' !in stem
    requires e != [] && e[0] == '.' && '.' !in e[1..] && '/' !in e
    requires forall i :: 0 <= i < |e| ==> !('A' <= e[i] <= 'Z')
    ensures LowerAscii(ExtName(stem + e)) == e
  {
    ExtNameAfterStem(stem, e);
    LowerAsciiKeepsLower(e);
  }

  /** ...and the server takes an `image/x-png` named `logo.png`, which the page
      refuses for its type. */
  lemma ServerTakesWhatPageRefuses(g: FileBlob)
    requires g.name == "logo.png" && g.mimeType == "image/x-png" && g.Size() <= MaxImageBytes
    ensures !ClientAccepts(g) && Acceptable(g)
  {
    assert g.mimeType[8..] == "png";
    EndingOccurs("png", g.mimeType);
    assert g.name == "logo" + ".png";
    ImageExtension("logo", ".png", "png");
    LongerTypeRefused(g.mimeType);
  }

  /** A type longer than all four listed ones is not among them. */
  lemma LongerTypeRefused(m: string)
    requires |m| > 10
    ensures m !in AllowedTypes
  {
  }

  /** A name whose lower-case extension ends in one of the four image words
      passes the extension half of the server's filter. */
  lemma ImageExtension(stem: string, e: string, w: string)
    requires stem != [] && stem[0] != '.' && '.' !in stem && '/' !in stem
    requires e != [] && e[0] == '.' && '.' !in e[1..] && '/' !in e
    requires forall i :: 0 <= i < |e| ==> !('A' <= e[i] <= 'Z')
    requires IsSuffix(w, e) && (w == "jpeg" || w == "jpg" || w == "png" || w == "gif")
    ensures ImagePattern(LowerAscii(ExtName(stem + e)))
  {
    PlainExtension(stem, e);
    EndingOccurs(w, e);
  }

  lemma EndingOccurs(w: string, s: string)
    requires IsSuffix(w, s)
    ensures Occurs(w, s)
  {
    assert OccursAt(w, s, |s| - |w|);
  }

  /** `.txt` holds none of the four image words. */
  lemma NoImageWord(s: string)
    requires s == ".txt"
    ensures !ImagePattern(s)
  {
    forall t, i | |t| >= 3 && OccursAt(t, s, i)
      ensures t[0] in "tx."
    {
      assert s[i..i + |t|][0] == s[i];
    }
  }

  // ----- loading the update page from the server -----

  /** How the page's request sees a server answer: a non-2xx status rejects it,
      and a student record fills the fields the page reads. */
  function ReplyOf(r: Response): Reply<Fetched> {
    match r
    case Error(_, _) => Rejected
    case Ok(Student(rec)) => Fulfilled(Fetched([], Some(rec.fname), Some(rec.lname), Some(rec.email), Some(rec.major), Some(rec.address)))
    case Ok(_) => Fulfilled(Fetched([], None, None, None, None, None))
  }

  /** Loading the freshly mounted update page against the server: the form is
      filled with the stored row exactly when the server has it. A missing id or a
      failed query shows the page's own message, never the server's `error`,
      because the server sends `error` only with a non-2xx status. */
  lemma LoadFromServer(f: Form, id: nat, dbFails: bool, majorsFail: bool, st: Store)
    ensures var l := Load(Mounted(f), ReplyOf(GetStudent(id, dbFails, st)), majorsFail);
      && (l.student.Some? <==> !dbFails && id in st.rows)
      && (l.student.None? ==> l.page == Page(f, LoadFailed))
      && (l.student.Some? ==>
            var row := st.rows[id];
            l.page.form == Form(row.fname, row.lname, row.email, row.major, row.address, None))
  {
  }

  /** A student added from a valid add page, then opened in the update page and
      saved untouched, is sent again with the same fields and no image part. */
  lemma AddThenEditUntouched(p: Page, stamp: Stamp, st: Store, q: Form)
    requires HandleSubmit(p).Sent?
    requires Valid(st) && FreshFor(HandleSubmit(p).payload.image, stamp, st.blobs)
    requires UploadGoesThrough(HandleSubmit(p).payload)
    ensures var s := HandleSubmit(p).payload;
      var o := AddStudent(s, stamp, false, st);
      && o.response.Ok? && o.response.body.Added?
      && var l := Load(Mounted(q), ReplyOf(GetStudent(o.response.body.id, false, o.store)), false);
      && HandleSubmit(l.page).Sent?
      && HandleSubmit(l.page).payload == s.(image := None)
  {
    var s := HandleSubmit(p).payload;
    SentPassesServerCheck(p);
    AddThenGet(s, stamp, st);
    var o := AddStudent(s, stamp, false, st);
    var l := Load(Mounted(q), ReplyOf(GetStudent(o.response.body.id, false, o.store)), false);
    var g := Form(s.fname, s.lname, s.email, s.major, s.address, None);
    assert l.page.form == g;
    PayloadRevalidates(p.form);
    NoImageSame(p.form);
  }

  /** Dropping the image does not change how the text fields validate or trim. */
  lemma NoImageSame(f: Form)
    ensures var s := Payload(f);
      var g := Form(s.fname, s.lname, s.email, s.major, s.address, None);
      var h := Form(s.fname, s.lname, s.email, s.major, s.address, s.image);
      Validate(g) == Validate(h) && Payload(g) == Payload(h).(image := None)
  {
    var s := Payload(f);
    var g := Form(s.fname, s.lname, s.email, s.major, s.address, None);
    var h := Form(s.fname, s.lname, s.email, s.major, s.address, s.image);
    TextOnlyValidation(Rules, g, h);
  }

  /** Validation reads only the text fields. */
  lemma {:induction false} TextOnlyValidation(rules: seq<Rule>, f: Form, g: Form)
    requires f.(image := g.image) == g
    ensures FirstFailure(rules, f) == FirstFailure(rules, g)
    decreases |rules|
  {
    if rules != [] {
      FailsIffBroken(rules[0], f);
      FailsIffBroken(rules[0], g);
      TextOnlyValidation(rules[1..], f, g);
    }
  }
}

=== FILE: lifecycle.dfy ===
/** How the `students` table and the upload directory stay coupled across the
    routes: round trips between writes and reads, where files are left behind
    without a row, and where a row is left naming a file that is gone. */
module Lifecycle {
  import opened Wrappers
  import opened Wire
  import opened Upload
  import opened Store
  import opened Routes

  /** A request whose upload, if any, the middleware will store. */
  predicate UploadGoesThrough(req: Submission) {
    req.image.Some? ==> Acceptable(req.image.value)
  }

  /** The image a row gets from a request: the stored file's name, or NULL. */
  function ProfileFrom(req: Submission, stamp: Stamp): Option<FileName> {
    if req.image.Some? then Some(StoredName(stamp, req.image.value.name)) else None
  }

  // ----- round trips -----

  /** A successful add is read back by `GET /:id` with exactly the submitted fields,
      and with the uploaded bytes when a file came with it. */
  lemma AddThenGet(req: Submission, stamp: Stamp, st: Store)
    requires Valid(st) && FreshFor(req.image, stamp, st.blobs)
    requires UploadGoesThrough(req) && RequiredPresent(req)
    ensures var o := AddStudent(req, stamp, false, st);
      && o.response.Ok? && o.response.body.Added?
      && GetStudent(o.response.body.id, false, o.store) == Ok(Student(Record(
           o.response.body.id, req.fname, req.lname, req.email, req.major, req.address,
           if req.image.Some? then Some(req.image.value.content) else None,
           if req.image.Some? then Some(true) else None,
           DescriptionOf(st, req.major))))
  {
    var o := AddStudent(req, stamp, false, st);
    var id := st.nextId;
    AddedStore(req, stamp, st);
    var intake := Receive(req.image, stamp, st.blobs);
    var row := Row(req.fname, req.lname, req.email, req.major, req.address, ProfileFrom(req, stamp));
    assert o.store.rows[id] == row && o.store.blobs == intake.blobs && o.store.majors == st.majors;
    if req.image.Some? {
      assert intake.blobs[StoredName(stamp, req.image.value.name)] == req.image.value.content;
    }
  }

  /** Deleting what a successful add created gives back the table and the upload
      directory as they were before the add. */
  lemma AddThenDeleteRestores(req: Submission, stamp: Stamp, st: Store)
    requires Valid(st) && FreshFor(req.image, stamp, st.blobs)
    requires UploadGoesThrough(req) && RequiredPresent(req)
    ensures var o := AddStudent(req, stamp, false, st);
      var d := DeleteStudent(st.nextId, false, false, o.store);
      d.store.rows == st.rows && d.store.blobs == st.blobs
  {
    var id := st.nextId;
    var intake := Receive(req.image, stamp, st.blobs);
    var row := Row(req.fname, req.lname, req.email, req.major, req.address, ProfileFrom(req, stamp));
    AddedStore(req, stamp, st);
    if req.image.Some? {
      UnlinkUndoesWrite(st.blobs, StoredName(stamp, req.image.value.name), req.image.value.content);
    }
    DeleteUndoesInsert(st, id, row, intake.blobs, id + 1);
  }

  /** The store after a successful add: the upload written, one row put under the
      counter's value, and the counter moved on. */
  lemma AddedStore(req: Submission, stamp: Stamp, st: Store)
    requires Valid(st) && FreshFor(req.image, stamp, st.blobs)
    requires UploadGoesThrough(req) && RequiredPresent(req)
    ensures AddStudent(req, stamp, false, st).store
      == st.(blobs := Receive(req.image, stamp, st.blobs).blobs,
             rows := st.rows[st.nextId := Row(req.fname, req.lname, req.email, req.major, req.address, ProfileFrom(req, stamp))],
             nextId := st.nextId + 1)
  {
  }

  /** Deleting a row just put under a fresh id, whose file (if any) was the only one
      added, gives back the rows and files from before. */
  lemma DeleteUndoesInsert(st: Store, id: nat, row: Row, blobs: map<FileName, Bytes>, k: nat)
    requires id !in st.rows
    requires row.profile.None? ==> blobs == st.blobs
    requires row.profile.Some? ==> Unlink(blobs, row.profile.value) == st.blobs
    ensures var d := DeleteStudent(id, false, false, st.(blobs := blobs, rows := st.rows[id := row], nextId := k));
      d.store.rows == st.rows && d.store.blobs == st.blobs
  {
    var s := st.(blobs := blobs, rows := st.rows[id := row], nextId := k);
    assert s.rows - {id} == st.rows;
  }

  /** Unlinking a file just written under a fresh name restores the directory. */
  lemma UnlinkUndoesWrite(blobs: map<FileName, Bytes>, n: FileName, content: Bytes)
    requires n !in blobs
    ensures Unlink(blobs[n := content], n) == blobs
  {
  }

  /** After a successful delete the id is not found and the student's file is gone. */
  lemma DeleteThenGet(id: nat, st: Store)
    ensures var d := DeleteStudent(id, false, false, st);
      && GetStudent(id, false, d.store) == Error(404, NotFound)
      && (forall n :: RefersTo(st, id, n) ==> n !in d.store.blobs)
  {
  }

  /** Deleting twice is deleting once: the second request changes nothing and is
      answered with the same success message. */
  lemma DeleteIdempotent(id: nat, st: Store)
    ensures var d := DeleteStudent(id, false, false, st);
      DeleteStudent(id, false, false, d.store) == Outcome(Ok(Message(Deleted)), d.store)
  {
    var d := DeleteStudent(id, false, false, st);
    assert id !in d.store.rows;
  }

  /** A successful modify of an existing student is read back by `GET /:id` with the
      new fields; the image is the new upload if one came, otherwise the old one.
      (A row could already name, as a missing file, the very name the upload is
      stored under; the unlink of the old file would then remove the new one, which
      `ModifyOverOwnNameDangles` shows, so that case is excluded.) */
  lemma ModifyThenGet(id: nat, req: Submission, stamp: Stamp, st: Store)
    requires id in st.rows && FreshFor(req.image, stamp, st.blobs)
    requires req.image.None? || st.rows[id].profile != ProfileFrom(req, stamp)
    requires UploadGoesThrough(req) && RequiredPresent(req)
    ensures var o := ModifyStudent(id, req, stamp, false, false, st);
      && o.response == Ok(Message(Updated))
      && GetStudent(id, false, o.store).Ok?
      && var rec := GetStudent(id, false, o.store).body.record;
      && rec.fname == req.fname && rec.lname == req.lname && rec.email == req.email
      && rec.major == req.major && rec.address == req.address
      && (req.image.Some? ==> rec.image == Some(req.image.value.content) && rec.hasImage == Some(true))
      && (req.image.None? ==> rec.image == GetStudent(id, false, st).body.record.image)
  {
    if req.image.Some? {
      ModifyKeepsUpload(id, req, stamp, st);
    } else {
      ModifyFileEffects(id, req, stamp, false, false, st);
    }
  }

  /** A successful modify with an image leaves the upload on disk, provided the
      row did not already name it. */
  lemma ModifyKeepsUpload(id: nat, req: Submission, stamp: Stamp, st: Store)
    requires id in st.rows && FreshFor(req.image, stamp, st.blobs)
    requires req.image.Some? && Acceptable(req.image.value) && RequiredPresent(req)
    requires st.rows[id].profile != Some(StoredName(stamp, req.image.value.name))
    ensures var o := ModifyStudent(id, req, stamp, false, false, st);
      var n := StoredName(stamp, req.image.value.name);
      n in o.store.blobs && o.store.blobs[n] == req.image.value.content
  {
    var n := StoredName(stamp, req.image.value.name);
    var intake := Receive(req.image, stamp, st.blobs);
    assert intake.received == Stored(n);
    var st1 := st.(blobs := intake.blobs);
    UpdateKeepsNewFile(id, req, n, st1);
    assert ModifyStudent(id, req, stamp, false, false, st) == Update(id, req, Some(n), false, st1);
  }

  /** The UPDATE step keeps the new upload unless the row already named it. */
  lemma UpdateKeepsNewFile(id: nat, req: Submission, n: FileName, st: Store)
    requires n in st.blobs && id in st.rows && st.rows[id].profile != Some(n)
    ensures var o := Update(id, req, Some(n), false, st);
      n in o.store.blobs && o.store.blobs[n] == st.blobs[n]
  {
    if st.rows[id].profile.Some? {
      var u := Unlink(st.blobs, st.rows[id].profile.value);
      assert n in u.Keys;
    }
  }

  /** The case `ModifyThenGet` excludes: when the row already names the file the
      upload is stored under, the handler unlinks the fresh upload as the "old"
      image, and the row is left naming a missing file. */
  lemma ModifyOverOwnNameDangles(id: nat, req: Submission, stamp: Stamp, st: Store)
    requires id in st.rows && FreshFor(req.image, stamp, st.blobs)
    requires req.image.Some? && st.rows[id].profile == ProfileFrom(req, stamp)
    requires UploadGoesThrough(req) && RequiredPresent(req)
    ensures var o := ModifyStudent(id, req, stamp, false, false, st);
      o.response == Ok(Message(Updated)) && Dangling(o.store, id)
  {
    var o := ModifyStudent(id, req, stamp, false, false, st);
    ModifyFileEffects(id, req, stamp, false, false, st);
    var n := StoredName(stamp, req.image.value.name);
    assert RefersTo(st, id, n);
    assert o.store.rows[id].profile == Some(n);
  }

  // ----- files left without a row -----

  /** An add leaves no new unreferenced file except the one it uploaded. */
  lemma AddOrphansOnlyItsUpload(req: Submission, stamp: Stamp, dbFails: bool, st: Store, n: FileName)
    requires Valid(st) && FreshFor(req.image, stamp, st.blobs)
    requires Orphan(AddStudent(req, stamp, dbFails, st).store, n)
    ensures Orphan(st, n) || ProfileFrom(req, stamp) == Some(n)
  {
    var o := AddStudent(req, stamp, dbFails, st);
    if n in st.blobs && Referenced(st, n) {
      var id :| RefersTo(st, id, n);
      assert RefersTo(o.store, id, n);
    }
  }

  /** An add whose handler rejects the fields, or whose INSERT fails, leaves its
      upload on disk with no row naming it. */
  lemma FailedAddOrphansUpload(req: Submission, stamp: Stamp, dbFails: bool, st: Store)
    requires Consistent(st) && FreshFor(req.image, stamp, st.blobs)
    requires req.image.Some? && Acceptable(req.image.value)
    requires !RequiredPresent(req) || dbFails
    ensures Orphan(AddStudent(req, stamp, dbFails, st).store, StoredName(stamp, req.image.value.name))
  {
    var o := AddStudent(req, stamp, dbFails, st);
    var n := StoredName(stamp, req.image.value.name);
    assert n !in st.blobs;
    assert forall id :: RefersTo(o.store, id, n) ==> Dangling(st, id);
  }

  /** A delete never leaves a file unreferenced. */
  lemma DeleteOrphansNothing(id: nat, selectFails: bool, deleteFails: bool, st: Store, n: FileName)
    requires Orphan(DeleteStudent(id, selectFails, deleteFails, st).store, n)
    ensures Orphan(st, n)
  {
    var o := DeleteStudent(id, selectFails, deleteFails, st);
    if Referenced(st, n) {
      var j :| RefersTo(st, j, n);
      assert RefersTo(o.store, j, n);
    }
  }

  /** A modify leaves no new unreferenced file except the one it uploaded. */
  lemma ModifyOrphansOnlyItsUpload(id: nat, req: Submission, stamp: Stamp, selectFails: bool, updateFails: bool, st: Store, n: FileName)
    requires FreshFor(req.image, stamp, st.blobs)
    requires Orphan(ModifyStudent(id, req, stamp, selectFails, updateFails, st).store, n)
    ensures Orphan(st, n) || ProfileFrom(req, stamp) == Some(n)
  {
    var o := ModifyStudent(id, req, stamp, selectFails, updateFails, st);
    ModifyFileEffects(id, req, stamp, selectFails, updateFails, st);
    if n in st.blobs && Referenced(st, n) && ProfileFrom(req, stamp) != Some(n) {
      var j :| RefersTo(st, j, n);
      if j == id && o.store.rows != st.rows {
        // a new upload would have unlinked `n`, yet `n` is still on disk
        assert o.response.Ok? && req.image.None?;
        assert o.store.rows[id].profile == st.rows[id].profile;
      }
      assert RefersTo(o.store, j, n);
    }
  }

  // ----- rows left naming a missing file -----

  /** The old file is unlinked before the UPDATE: when the UPDATE then fails, the
      row still names the deleted file and the new upload belongs to nobody. */
  lemma FailedUpdateLeavesDangling(id: nat, req: Submission, stamp: Stamp, st: Store)
    requires Consistent(st) && FreshFor(req.image, stamp, st.blobs)
    requires id in st.rows && st.rows[id].profile.Some?
    requires req.image.Some? && Acceptable(req.image.value) && RequiredPresent(req)
    ensures var o := ModifyStudent(id, req, stamp, false, true, st);
      && o.response == Error(500, UpdateFailed)
      && Dangling(o.store, id)
      && Orphan(o.store, StoredName(stamp, req.image.value.name))
  {
    FailedUpdateStore(id, req, stamp, st);
    StaleRowAndOrphan(st, Receive(req.image, stamp, st.blobs).blobs, id, StoredName(stamp, req.image.value.name));
  }

  /** Writing a fresh file `n` and then unlinking the file row `id` names leaves
      that row dangling and `n` named by no row. */
  lemma StaleRowAndOrphan(st: Store, landed: map<FileName, Bytes>, id: nat, n: FileName)
    requires Consistent(st) && id in st.rows && st.rows[id].profile.Some?
    requires n !in st.blobs && n in landed
    ensures var st1 := st.(blobs := landed);
      var after := st1.(blobs := Unlink(st1.blobs, st.rows[id].profile.value));
      Dangling(after, id) && Orphan(after, n)
  {
    var after := st.(blobs := Unlink(landed, st.rows[id].profile.value));
    assert st.rows[id].profile.value in st.blobs by { assert !Dangling(st, id); }
    if Referenced(after, n) {
      var j :| RefersTo(after, j, n);
      assert Dangling(st, j);
    }
  }

  /** What a modify whose UPDATE fails leaves behind: the rows as they were, and the
      upload directory with the new file written and the old one unlinked. */
  lemma FailedUpdateStore(id: nat, req: Submission, stamp: Stamp, st: Store)
    requires FreshFor(req.image, stamp, st.blobs)
    requires id in st.rows && st.rows[id].profile.Some?
    requires req.image.Some? && Acceptable(req.image.value) && RequiredPresent(req)
    ensures var st1 := st.(blobs := Receive(req.image, stamp, st.blobs).blobs);
      ModifyStudent(id, req, stamp, false, true, st)
        == Outcome(Error(500, UpdateFailed), st1.(blobs := Unlink(st1.blobs, st.rows[id].profile.value)))
  {
    var intake := Receive(req.image, stamp, st.blobs);
    assert intake.received.Stored?;
  }

  /** The file is unlinked before the DELETE: when the DELETE fails, the row stays
      and names a file that is gone. */
  lemma FailedDeleteLeavesDangling(id: nat, st: Store)
    requires id in st.rows && st.rows[id].profile.Some?
    ensures var o := DeleteStudent(id, false, true, st);
      o.response == Error(500, DeleteFailed) && Dangling(o.store, id)
  {
    assert RefersTo(st, id, st.rows[id].profile.value);
  }

  // ----- consistency -----

  /** Every add keeps the two storage systems consistent, even when it fails:
      at worst it leaves an unreferenced file. */
  lemma AddKeepsConsistent(req: Submission, stamp: Stamp, dbFails: bool, st: Store)
    requires Valid(st) && Consistent(st) && FreshFor(req.image, stamp, st.blobs)
    ensures Consistent(AddStudent(req, stamp, dbFails, st).store)
  {
    var o := AddStudent(req, stamp, dbFails, st);
    var intake := Receive(req.image, stamp, st.blobs);
    LandedKeepsConsistent(req, stamp, st);
    if intake.received.Refused? {
      assert o.store == st;
    } else if !RequiredPresent(req) || dbFails {
      assert o.store == st.(blobs := intake.blobs);
    } else {
      InsertKeepsConsistent(req, stamp, st);
    }
  }

  /** The INSERT of a successful add names either no file or the fresh upload. */
  lemma InsertKeepsConsistent(req: Submission, stamp: Stamp, st: Store)
    requires Valid(st) && Consistent(st) && FreshFor(req.image, stamp, st.blobs)
    requires UploadGoesThrough(req) && RequiredPresent(req)
    ensures Consistent(AddStudent(req, stamp, false, st).store)
  {
    UploadUnreferenced(req, stamp, st);
    AppendRowKeepsConsistent(st, Receive(req.image, stamp, st.blobs).blobs,
      Row(req.fname, req.lname, req.email, req.major, req.address, ProfileFrom(req, stamp)));
    AddedStore(req, stamp, st);
  }

  /** The file an add's row will name is on disk once the middleware is done, and
      no row names it yet. */
  lemma UploadUnreferenced(req: Submission, stamp: Stamp, st: Store)
    requires Consistent(st) && FreshFor(req.image, stamp, st.blobs) && UploadGoesThrough(req)
    ensures var landed := st.(blobs := Receive(req.image, stamp, st.blobs).blobs);
      var p := ProfileFrom(req, stamp);
      && Consistent(landed)
      && (p.None? || (p.value in landed.blobs && !Referenced(landed, p.value)))
  {
    LandedKeepsConsistent(req, stamp, st);
  }

  /** With the upload directory now `blobs`, a row put under the next id keeps the
      store consistent when it names no file or a file on disk that no row names yet. */
  lemma AppendRowKeepsConsistent(st: Store, blobs: map<FileName, Bytes>, row: Row)
    requires var landed := st.(blobs := blobs);
      && Consistent(landed)
      && (row.profile.None? || (row.profile.value in blobs && !Referenced(landed, row.profile.value)))
    ensures Consistent(st.(blobs := blobs, rows := st.rows[st.nextId := row], nextId := st.nextId + 1))
  {
    var landed := st.(blobs := blobs);
    var put := landed.(rows := st.rows[st.nextId := row]);
    PutRowKeepsConsistent(landed, st.nextId, row);
    CounterIrrelevant(put, st.nextId + 1);
    assert put.(nextId := st.nextId + 1) == st.(blobs := blobs, rows := st.rows[st.nextId := row], nextId := st.nextId + 1);
  }

  /** Once the middleware has written an upload, the store is still consistent and
      nothing names the new file. */
  lemma LandedKeepsConsistent(req: Submission, stamp: Stamp, st: Store)
    requires Consistent(st) && FreshFor(req.image, stamp, st.blobs)
    ensures var intake := Receive(req.image, stamp, st.blobs);
      && Consistent(st.(blobs := intake.blobs))
      && (intake.received.Stored? ==> !Referenced(st.(blobs := intake.blobs), intake.received.name))
  {
    var intake := Receive(req.image, stamp, st.blobs);
    var st1 := st.(blobs := intake.blobs);
    if intake.received.Stored? {
      var n := intake.received.name;
      AddBlobKeepsConsistent(st, n, req.image.value.content);
      assert forall j :: RefersTo(st1, j, n) ==> Dangling(st, j);
    } else {
      assert st1 == st;
    }
  }

  /** A delete keeps the storage systems consistent unless its DELETE query fails
      after a file was unlinked. */
  lemma DeleteKeepsConsistent(id: nat, selectFails: bool, deleteFails: bool, st: Store)
    requires Consistent(st)
    requires !deleteFails || !(id in st.rows && st.rows[id].profile.Some?)
    ensures Consistent(DeleteStudent(id, selectFails, deleteFails, st).store)
  {
    if deleteFails {
      assert DeleteStudent(id, selectFails, deleteFails, st).store == st;
      return;
    }
    var o := DeleteStudent(id, selectFails, false, st);
    forall j | j in o.store.rows
      ensures !Dangling(o.store, j)
    {
      assert !Dangling(st, j);
      if st.rows[j].profile.Some? {
        assert RefersTo(st, j, st.rows[j].profile.value);
      }
    }
    forall i, j, n | RefersTo(o.store, i, n) && RefersTo(o.store, j, n)
      ensures i == j
    {
      assert RefersTo(st, i, n) && RefersTo(st, j, n);
    }
  }

  /** A modify keeps the storage systems consistent unless its UPDATE query fails
      after the old file was unlinked. */
  lemma ModifyKeepsConsistent(id: nat, req: Submission, stamp: Stamp, selectFails: bool, updateFails: bool, st: Store)
    requires Consistent(st) && FreshFor(req.image, stamp, st.blobs)
    requires !updateFails || req.image.None? || !(id in st.rows && st.rows[id].profile.Some?)
    ensures Consistent(ModifyStudent(id, req, stamp, selectFails, updateFails, st).store)
  {
    if updateFails {
      FailedUpdateKeepsConsistent(id, req, stamp, selectFails, st);
      return;
    }
    var o := ModifyStudent(id, req, stamp, selectFails, false, st);
    var intake := Receive(req.image, stamp, st.blobs);
    if intake.received.Refused? {
      assert o.store == st;
    } else {
      var st1 := st.(blobs := intake.blobs);
      LandedKeepsConsistent(req, stamp, st);
      if !RequiredPresent(req) || selectFails || id !in st.rows {
        assert o.store == st1;
      } else {
        var row := o.store.rows[id];
        var st2 := st1.(rows := st1.rows[id := row]);
        PutRowKeepsConsistent(st1, id, row);
        if intake.received.Stored? && st.rows[id].profile.Some? {
          var n := intake.received.name;
          var p := st.rows[id].profile.value;
          assert !Dangling(st, id) && p in st.blobs && n !in st.blobs;
          assert row.profile == Some(n);
          assert o.store.blobs == Unlink(intake.blobs, p);
          assert RefersTo(st1, id, p);
          RepointFreesOld(st1, id, row, p);
          DropBlobKeepsConsistent(st2, p);
          assert o.store == st2.(blobs := st2.blobs - {p});
        } else {
          assert o.store == st2;
        }
      }
    }
  }

  /** A failed UPDATE that unlinked nothing leaves the store as the upload
      middleware left it, which is consistent. */
  lemma FailedUpdateKeepsConsistent(id: nat, req: Submission, stamp: Stamp, selectFails: bool, st: Store)
    requires Consistent(st) && FreshFor(req.image, stamp, st.blobs)
    requires req.image.None? || !(id in st.rows && st.rows[id].profile.Some?)
    ensures Consistent(ModifyStudent(id, req, stamp, selectFails, true, st).store)
  {
    var intake := Receive(req.image, stamp, st.blobs);
    LandedKeepsConsistent(req, stamp, st);
    if intake.received.Refused? {
      assert ModifyStudent(id, req, stamp, selectFails, true, st).store == st;
    } else {
      assert ModifyStudent(id, req, stamp, selectFails, true, st).store == st.(blobs := intake.blobs);
    }
  }
}

=== FILE: ordering.dfy ===
/** The two orders the server's queries sort by: `ORDER BY s.StdID` on student ids
    and `ORDER BY MajorCode` on major codes (compared code point by code point). */
module Ordering {

  /** Lexicographic order on strings: `a` is a prefix of `b`, or `a` has the smaller
      character at the first position where they differ. */
  predicate LexLeq(a: string, b: string)
    decreases |a|
  {
    |a| == 0 || (|b| > 0 && (a[0] < b[0] || (a[0] == b[0] && LexLeq(a[1..], b[1..]))))
  }

  lemma {:induction false} LexReflexive(a: string)
    ensures LexLeq(a, a)
    decreases |a|
  {
    if |a| > 0 {
      LexReflexive(a[1..]);
    }
  }

  lemma {:induction false} LexTotal(a: string, b: string)
    ensures LexLeq(a, b) || LexLeq(b, a)
    decreases |a|
  {
    if |a| > 0 && |b| > 0 && a[0] == b[0] {
      LexTotal(a[1..], b[1..]);
    }
  }

  lemma {:induction false} LexAntisymmetric(a: string, b: string)
    requires LexLeq(a, b) && LexLeq(b, a)
    ensures a == b
    decreases |a|
  {
    if |a| > 0 {
      LexAntisymmetric(a[1..], b[1..]);
      assert a == [a[0]] + a[1..];
      assert b == [b[0]] + b[1..];
    }
  }

  lemma {:induction false} LexTransitive(a: string, b: string, c: string)
    requires LexLeq(a, b) && LexLeq(b, c)
    ensures LexLeq(a, c)
    decreases |a|
  {
    if |a| > 0 && a[0] == b[0] && b[0] == c[0] {
      LexTransitive(a[1..], b[1..], c[1..]);
    }
  }

  /** `m` is the least element of `s` under `LexLeq`. */
  predicate IsLeastCode(m: string, s: set<string>) {
    m in s && forall c :: c in s ==> LexLeq(m, c)
  }

  lemma {:induction false} LeastCodeExists(s: set<string>)
    requires s != {}
    ensures exists m :: IsLeastCode(m, s)
    decreases |s|
  {
    var x :| x in s;
    if s == {x} {
      LexReflexive(x);
      assert IsLeastCode(x, s);
    } else {
      LeastCodeExists(s - {x});
      var y :| IsLeastCode(y, s - {x});
      LexTotal(x, y);
      if LexLeq(x, y) {
        forall c | c in s
          ensures LexLeq(x, c)
        {
          if c == x {
            LexReflexive(x);
          } else {
            LexTransitive(x, y, c);
          }
        }
        assert IsLeastCode(x, s);
      } else {
        assert IsLeastCode(y, s);
      }
    }
  }

  lemma LeastCodeUnique(s: set<string>)
    ensures forall m, m' :: IsLeastCode(m, s) && IsLeastCode(m', s) ==> m == m'
  {
    forall m, m' | IsLeastCode(m, s) && IsLeastCode(m', s)
      ensures m == m'
    {
      LexAntisymmetric(m, m');
    }
  }

  function LeastCode(s: set<string>): (m: string)
    requires s != {}
    ensures IsLeastCode(m, s)
  {
    LeastCodeExists(s);
    LeastCodeUnique(s);
    var m :| IsLeastCode(m, s);
    m
  }

  /** The elements of `s` in strictly increasing lexicographic order. */
  function SortedCodes(s: set<string>): (r: seq<string>)
    ensures |r| == |s|
    ensures forall c :: c in s <==> c in r
    ensures forall i, j :: 0 <= i < j < |r| ==> LexLeq(r[i], r[j]) && r[i] != r[j]
    decreases |s|
  {
    if s == {} then []
    else
      var m := LeastCode(s);
      var rest := SortedCodes(s - {m});
      PrependLeastCode(m, s, rest);
      [m] + rest
  }

  /** The least code followed by the rest in order is all of `s` in order. */
  lemma PrependLeastCode(m: string, s: set<string>, rest: seq<string>)
    requires IsLeastCode(m, s)
    requires |rest| == |s - {m}|
    requires forall c :: c in s - {m} <==> c in rest
    requires forall i, j :: 0 <= i < j < |rest| ==> LexLeq(rest[i], rest[j]) && rest[i] != rest[j]
    ensures var r := [m] + rest;
      && |r| == |s|
      && (forall c :: c in s <==> c in r)
      && (forall i, j :: 0 <= i < j < |r| ==> LexLeq(r[i], r[j]) && r[i] != r[j])
  {
    var r := [m] + rest;
    forall i, j | 0 <= i < j < |r|
      ensures LexLeq(r[i], r[j]) && r[i] != r[j]
    {
      assert r[j] == rest[j - 1];
      if i == 0 {
        assert rest[j - 1] in s - {m};
      } else {
        assert r[i] == rest[i - 1];
      }
    }
  }

  /** `m` is the smallest element of `s`. */
  predicate IsLeastId(m: nat, s: set<nat>) {
    m in s && forall x :: x in s ==> m <= x
  }

  lemma {:induction false} LeastIdExists(s: set<nat>)
    requires s != {}
    ensures exists m :: IsLeastId(m, s)
    decreases |s|
  {
    var x :| x in s;
    if s == {x} {
      assert IsLeastId(x, s);
    } else {
      LeastIdExists(s - {x});
      var y :| IsLeastId(y, s - {x});
      forall z | z in s
        ensures z == x || y <= z
      {
        if z != x {
          assert z in s - {x};
        }
      }
      if x <= y {
        assert IsLeastId(x, s);
      } else {
        assert IsLeastId(y, s);
      }
    }
  }

  function LeastId(s: set<nat>): (m: nat)
    requires s != {}
    ensures IsLeastId(m, s)
  {
    LeastIdExists(s);
    var m :| IsLeastId(m, s);
    m
  }

  /** The elements of `s` in strictly increasing order. */
  function SortedIds(s: set<nat>): (r: seq<nat>)
    ensures |r| == |s|
    ensures forall x :: x in s <==> x in r
    ensures forall i, j :: 0 <= i < j < |r| ==> r[i] < r[j]
    decreases |s|
  {
    if s == {} then []
    else
      var m := LeastId(s);
      var rest := SortedIds(s - {m});
      PrependLeastId(m, s, rest);
      [m] + rest
  }

  /** The least id followed by the rest in order is all of `s` in order. */
  lemma PrependLeastId(m: nat, s: set<nat>, rest: seq<nat>)
    requires IsLeastId(m, s)
    requires |rest| == |s - {m}|
    requires forall x :: x in s - {m} <==> x in rest
    requires forall i, j :: 0 <= i < j < |rest| ==> rest[i] < rest[j]
    ensures var r := [m] + rest;
      && |r| == |s|
      && (forall x :: x in s <==> x in r)
      && (forall i, j :: 0 <= i < j < |r| ==> r[i] < r[j])
  {
    var r := [m] + rest;
    forall i, j | 0 <= i < j < |r|
      ensures r[i] < r[j]
    {
      assert r[j] == rest[j - 1];
      if i == 0 {
        assert rest[j - 1] in s - {m};
      } else {
        assert r[i] == rest[i - 1];
      }
    }
  }
}

=== FILE: routes.dfy ===
/** The six routes of the students router, each a pure transition from a request
    and the store to a response and the new store. A database failure is an input
    flag per query; the clock and random number behind a storage name are a `Stamp`;
    a fire-and-forget `unlink` takes effect at once. */
module Routes {
  import opened Wrappers
  import opened Wire
  import opened Upload
  import opened Ordering
  import opened Store

  datatype Major = Major(code: string, description: string)

  /** One element of the `GET /` answer. `major` is the joined description (NULL
      when the code has no major); `image` is the `Profile` field, which carries
      the base64 text of these bytes, or null. */
  datatype Listed = Listed(
    id: nat,
    fname: string,
    lname: string,
    email: string,
    major: Option<string>,
    address: string,
    image: Option<Bytes>,
    hasImage: bool)

  /** The `GET /:id` answer: the row as stored (`major` is the code) plus the
      joined `MajorDescription`. `hasImage` is absent when `Profile` is NULL. */
  datatype Record = Record(
    id: nat,
    fname: string,
    lname: string,
    email: string,
    major: string,
    address: string,
    image: Option<Bytes>,
    hasImage: Option<bool>,
    majorDescription: Option<string>)

  datatype Body =
    | Students(students: seq<Listed>)
    | Majors(majors: seq<Major>)
    | Student(record: Record)
    | Added(message: string, id: nat)
    | Message(message: string)

  /** Status 200 with a JSON body, or an error status with `{ error }`. */
  datatype Response = Ok(body: Body) | Error(status: nat, error: string)

  datatype Outcome = Outcome(response: Response, store: Store)

  const DatabaseError := "Database error"
  const NotFound := "Student not found"
  const AddFieldsRequired := "All fields except image are required"
  const ModifyFieldsRequired := "All fields are required"
  const AddFailed := "Failed to add student"
  const DeleteFailed := "Failed to delete student"
  const UpdateFailed := "Failed to update student"
  const AddedMessage := "Student added successfully!"
  const Deleted := "Student deleted successfully!"
  const Updated := "Student updated successfully"
  /** The application-wide error handler's answer to a refused upload. */
  const UploadRefused := "Something went wrong!"

  /** `!fname || !lname || !email || !major || !address` is false. */
  predicate RequiredPresent(req: Submission) {
    req.fname != [] && req.lname != [] && req.email != [] && req.major != [] && req.address != []
  }

  /** The LEFT JOIN on `major`: the description of a code, or NULL. */
  function DescriptionOf(st: Store, code: string): Option<string> {
    if code in st.majors then Some(st.majors[code]) else None
  }

  /** `existsSync` followed by `unlink`: remove the file when it is there. */
  function Unlink(blobs: map<FileName, Bytes>, n: FileName): (r: map<FileName, Bytes>)
    ensures r.Keys == blobs.Keys - {n}
    ensures forall m :: m in r ==> r[m] == blobs[m]
  {
    if n in blobs then blobs - {n} else blobs
  }

  // ----- GET / -----

  /** How `GET /` shows row `id`. */
  predicate ShowsRow(e: Listed, id: nat, st: Store, unreadable: set<FileName>)
    requires id in st.rows
  {
    var row := st.rows[id];
    && e.id == id
    && e.fname == row.fname && e.lname == row.lname && e.email == row.email
    && e.address == row.address
    && e.major == DescriptionOf(st, row.major)
    && (e.hasImage <==> row.profile.Some? && row.profile.value in st.blobs && row.profile.value !in unreadable)
    && (e.hasImage ==> e.image == Some(st.blobs[row.profile.value]))
    && (!e.hasImage ==> e.image == None)
  }

  function ListEntry(id: nat, st: Store, unreadable: set<FileName>): (e: Listed)
    requires id in st.rows
    ensures ShowsRow(e, id, st, unreadable)
  {
    var row := st.rows[id];
    var shown := row.profile.Some? && row.profile.value in st.blobs && row.profile.value !in unreadable;
    Listed(id, row.fname, row.lname, row.email, DescriptionOf(st, row.major), row.address,
           if shown then Some(st.blobs[row.profile.value]) else None, shown)
  }

  /** `list` shows every row of the table once, by increasing id. */
  predicate ListsAllRows(list: seq<Listed>, st: Store, unreadable: set<FileName>) {
    && |list| == |st.rows|
    && (forall i, j :: 0 <= i < j < |list| ==> list[i].id < list[j].id)
    && (forall id :: id in st.rows ==> exists i :: 0 <= i < |list| && list[i].id == id)
    && (forall i :: 0 <= i < |list| ==> list[i].id in st.rows && ShowsRow(list[i], list[i].id, st, unreadable))
  }

  function Entries(ids: seq<nat>, st: Store, unreadable: set<FileName>): (list: seq<Listed>)
    requires forall i :: 0 <= i < |ids| ==> ids[i] in st.rows
    ensures |list| == |ids|
    ensures forall i :: 0 <= i < |ids| ==> list[i] == ListEntry(ids[i], st, unreadable)
  {
    if ids == [] then [] else [ListEntry(ids[0], st, unreadable)] + Entries(ids[1..], st, unreadable)
  }

  lemma EntriesListAllRows(ids: seq<nat>, st: Store, unreadable: set<FileName>)
    requires |ids| == |st.rows.Keys|
    requires forall x :: x in st.rows <==> x in ids
    requires forall i, j :: 0 <= i < j < |ids| ==> ids[i] < ids[j]
    ensures ListsAllRows(Entries(ids, st, unreadable), st, unreadable)
  {
    var list := Entries(ids, st, unreadable);
    assert |list| == |st.rows| by { assert |st.rows| == |st.rows.Keys|; }
    forall i | 0 <= i < |list|
      ensures list[i].id == ids[i] && list[i].id in st.rows && ShowsRow(list[i], list[i].id, st, unreadable)
    {
      assert list[i] == ListEntry(ids[i], st, unreadable);
    }
    forall id | id in st.rows
      ensures exists i :: 0 <= i < |list| && list[i].id == id
    {
      var i :| 0 <= i < |ids| && ids[i] == id;
      assert list[i].id == id;
    }
  }

  /** `GET /`: every student, by increasing id, with the major's description and
      the image when its file can be read. A file that is missing, or whose read
      fails (`unreadable`), shows as no image; it never makes the request fail. */
  function ListStudents(dbFails: bool, unreadable: set<FileName>, st: Store): (r: Response)
    ensures r.Error? <==> dbFails
    ensures dbFails ==> r == Error(500, DatabaseError)
    ensures r.Ok? ==> r.body.Students? && ListsAllRows(r.body.students, st, unreadable)
  {
    if dbFails then Error(500, DatabaseError)
    else
      var ids := SortedIds(st.rows.Keys);
      EntriesListAllRows(ids, st, unreadable);
      Ok(Students(Entries(ids, st, unreadable)))
  }

  // ----- GET /majors -----

  /** `list` is the `major` table, each code once, in increasing order of code. */
  predicate ListsAllMajors(list: seq<Major>, st: Store) {
    && |list| == |st.majors|
    && (forall code :: code in st.majors ==> exists i :: 0 <= i < |list| && list[i].code == code)
    && (forall i :: 0 <= i < |list| ==> list[i].code in st.majors && list[i].description == st.majors[list[i].code])
    && (forall i, j :: 0 <= i < j < |list| ==> LexLeq(list[i].code, list[j].code) && list[i].code != list[j].code)
  }

  function MajorRows(codes: seq<string>, st: Store): (list: seq<Major>)
    requires forall i :: 0 <= i < |codes| ==> codes[i] in st.majors
    ensures |list| == |codes|
    ensures forall i :: 0 <= i < |codes| ==> list[i] == Major(codes[i], st.majors[codes[i]])
  {
    if codes == [] then [] else [Major(codes[0], st.majors[codes[0]])] + MajorRows(codes[1..], st)
  }

  lemma MajorRowsListAll(codes: seq<string>, st: Store)
    requires |codes| == |st.majors.Keys|
    requires forall c :: c in st.majors <==> c in codes
    requires forall i, j :: 0 <= i < j < |codes| ==> LexLeq(codes[i], codes[j]) && codes[i] != codes[j]
    ensures ListsAllMajors(MajorRows(codes, st), st)
  {
    var list := MajorRows(codes, st);
    assert |list| == |st.majors| by { assert |st.majors| == |st.majors.Keys|; }
    forall i | 0 <= i < |list|
      ensures list[i].code == codes[i] && list[i].code in st.majors && list[i].description == st.majors[list[i].code]
    {
      assert list[i] == Major(codes[i], st.majors[codes[i]]);
    }
    forall code | code in st.majors
      ensures exists i :: 0 <= i < |list| && list[i].code == code
    {
      var i :| 0 <= i < |codes| && codes[i] == code;
      assert list[i].code == code;
    }
  }

  /** `GET /majors`: the `major` table ordered by code. */
  function ListMajors(dbFails: bool, st: Store): (r: Response)
    ensures r.Error? <==> dbFails
    ensures dbFails ==> r == Error(500, DatabaseError)
    ensures r.Ok? ==> r.body.Majors? && ListsAllMajors(r.body.majors, st)
  {
    if dbFails then Error(500, DatabaseError)
    else
      var codes := SortedCodes(st.majors.Keys);
      MajorRowsListAll(codes, st);
      Ok(Majors(MajorRows(codes, st)))
  }

  // ----- POST /add -----

  /** `POST /add`. The upload middleware runs first, so a file it accepts is on
      disk even when the handler then answers 400 or the INSERT fails. */
  function AddStudent(req: Submission, stamp: Stamp, dbFails: bool, st: Store): (o: Outcome)
    requires FreshFor(req.image, stamp, st.blobs)
    ensures o.store.majors == st.majors
    // a refused upload never reaches the handler
    ensures req.image.Some? && !Acceptable(req.image.value) ==> o == Outcome(Error(500, UploadRefused), st)
    // otherwise the upload is on disk, whatever the handler answers
    ensures !(req.image.Some? && !Acceptable(req.image.value)) ==> o.store.blobs == Receive(req.image, stamp, st.blobs).blobs
    ensures !(req.image.Some? && !Acceptable(req.image.value)) && !RequiredPresent(req) ==>
      o.response == Error(400, AddFieldsRequired) && o.store.rows == st.rows && o.store.nextId == st.nextId
    ensures !(req.image.Some? && !Acceptable(req.image.value)) && RequiredPresent(req) && dbFails ==>
      o.response == Error(500, AddFailed) && o.store.rows == st.rows && o.store.nextId == st.nextId
    // success: one new row holding exactly the submitted fields under a fresh id
    ensures o.response.Ok? <==> !(req.image.Some? && !Acceptable(req.image.value)) && RequiredPresent(req) && !dbFails
    ensures o.response.Ok? ==>
      var id := st.nextId;
      && o.response == Ok(Added(AddedMessage, id))
      && (Valid(st) ==> id !in st.rows)
      && o.store.rows == st.rows[id := Row(req.fname, req.lname, req.email, req.major, req.address,
                                            if req.image.Some? then Some(StoredName(stamp, req.image.value.name)) else None)]
      && o.store.nextId > id
    ensures Valid(st) ==> Valid(o.store)
  {
    var intake := Receive(req.image, stamp, st.blobs);
    if intake.received.Refused? then Outcome(Error(500, UploadRefused), st)
    else
      var st1 := st.(blobs := intake.blobs);
      var image := if intake.received.Stored? then Some(intake.received.name) else None;
      if !RequiredPresent(req) then Outcome(Error(400, AddFieldsRequired), st1)
      else if dbFails then Outcome(Error(500, AddFailed), st1)
      else
        var id := st.nextId;
        var row := Row(req.fname, req.lname, req.email, req.major, req.address, image);
        Outcome(Ok(Added(AddedMessage, id)), st1.(rows := st.rows[id := row], nextId := id + 1))
  }

  // ----- DELETE /:id -----

  /** `DELETE /:id`. The profile file is unlinked after the SELECT and before the
      DELETE; a missing id deletes nothing and is still answered with success. */
  function DeleteStudent(id: nat, selectFails: bool, deleteFails: bool, st: Store): (o: Outcome)
    ensures selectFails ==> o == Outcome(Error(500, DatabaseError), st)
    ensures o.store.majors == st.majors && o.store.nextId == st.nextId
    ensures !selectFails && deleteFails ==> o.response == Error(500, DeleteFailed) && o.store.rows == st.rows
    ensures o.response.Ok? <==> !selectFails && !deleteFails
    ensures o.response.Ok? ==> o.response == Ok(Message(Deleted)) && o.store.rows == st.rows - {id}
    // the only blob that can go is the one this row names, and once the SELECT
    // has run it is gone
    ensures forall n :: n in o.store.blobs ==> n in st.blobs && o.store.blobs[n] == st.blobs[n]
    ensures forall n :: n in st.blobs && n !in o.store.blobs ==> RefersTo(st, id, n)
    ensures !selectFails ==> forall n :: RefersTo(st, id, n) ==> n !in o.store.blobs
    ensures id !in st.rows ==> o.store == st
    ensures Valid(st) ==> Valid(o.store)
  {
    if selectFails then Outcome(Error(500, DatabaseError), st)
    else
      var blobs := if id in st.rows && st.rows[id].profile.Some? then Unlink(st.blobs, st.rows[id].profile.value) else st.blobs;
      var st1 := st.(blobs := blobs);
      if deleteFails then Outcome(Error(500, DeleteFailed), st1)
      else Outcome(Ok(Message(Deleted)), st1.(rows := st.rows - {id}))
  }

  // ----- GET /:id -----

  /** `GET /:id`: the row with its major's description. A profile whose file is
      missing comes back as no image rather than as an error. */
  function GetStudent(id: nat, dbFails: bool, st: Store): (r: Response)
    ensures r.Error? <==> dbFails || id !in st.rows
    ensures dbFails ==> r == Error(500, DatabaseError)
    ensures !dbFails && id !in st.rows ==> r == Error(404, NotFound)
    ensures r.Ok? ==> r.body.Student?
    ensures r.Ok? ==>
      var row, rec := st.rows[id], r.body.record;
      && rec.id == id
      && rec.fname == row.fname && rec.lname == row.lname && rec.email == row.email
      && rec.major == row.major && rec.address == row.address
      && rec.majorDescription == DescriptionOf(st, row.major)
      && (row.profile.None? ==> rec.image == None && rec.hasImage == None)
      && (row.profile.Some? && row.profile.value in st.blobs ==>
            rec.image == Some(st.blobs[row.profile.value]) && rec.hasImage == Some(true))
      && (row.profile.Some? && row.profile.value !in st.blobs ==>
            rec.image == None && rec.hasImage == Some(false))
  {
    if dbFails then Error(500, DatabaseError)
    else if id !in st.rows then Error(404, NotFound)
    else
      var row := st.rows[id];
      var shown :=
        match row.profile
        case None => (None, None)
        case Some(n) => if n in st.blobs then (Some(st.blobs[n]), Some(true)) else (None, Some(false));
      Ok(Student(Record(id, row.fname, row.lname, row.email, row.major, row.address,
                        shown.0, shown.1, DescriptionOf(st, row.major))))
  }

  // ----- POST /modify/:id -----

  /** `POST /modify/:id`. With a new image the old file is unlinked right after the
      SELECT, before the UPDATE runs; without one, `Profile` is left out of the
      UPDATE. An id with no row updates nothing and is still answered with success. */
  function ModifyStudent(id: nat, req: Submission, stamp: Stamp, selectFails: bool, updateFails: bool, st: Store): (o: Outcome)
    requires FreshFor(req.image, stamp, st.blobs)
    ensures o.store.majors == st.majors && o.store.nextId == st.nextId
    ensures req.image.Some? && !Acceptable(req.image.value) ==> o == Outcome(Error(500, UploadRefused), st)
    ensures !(req.image.Some? && !Acceptable(req.image.value)) && !RequiredPresent(req) ==>
      o.response == Error(400, ModifyFieldsRequired) && o.store.rows == st.rows
      && o.store.blobs == Receive(req.image, stamp, st.blobs).blobs
    ensures !(req.image.Some? && !Acceptable(req.image.value)) && RequiredPresent(req) && selectFails ==>
      o.response == Error(500, DatabaseError) && o.store.rows == st.rows
      && o.store.blobs == Receive(req.image, stamp, st.blobs).blobs
    ensures !(req.image.Some? && !Acceptable(req.image.value)) && RequiredPresent(req) && !selectFails && updateFails ==>
      o.response == Error(500, UpdateFailed) && o.store.rows == st.rows
    ensures o.response.Ok? <==> !(req.image.Some? && !Acceptable(req.image.value)) && RequiredPresent(req) && !selectFails && !updateFails
    ensures o.response.Ok? ==> o.response == Ok(Message(Updated))
    // the row: five fields always, `Profile` only with a new image
    ensures o.response.Ok? && id !in st.rows ==> o.store.rows == st.rows
    ensures o.response.Ok? && id in st.rows ==>
      o.store.rows == st.rows[id := Row(req.fname, req.lname, req.email, req.major, req.address,
                                         if req.image.Some? then Some(StoredName(stamp, req.image.value.name))
                                         else st.rows[id].profile)]
    ensures Valid(st) ==> Valid(o.store)
  {
    var intake := Receive(req.image, stamp, st.blobs);
    if intake.received.Refused? then Outcome(Error(500, UploadRefused), st)
    else
      var st1 := st.(blobs := intake.blobs);
      if !RequiredPresent(req) then Outcome(Error(400, ModifyFieldsRequired), st1)
      else if selectFails then Outcome(Error(500, DatabaseError), st1)
      else
        var newFile := if intake.received.Stored? then Some(intake.received.name) else None;
        Update(id, req, newFile, updateFails, st1)
  }

  /** The handler of `POST /modify/:id` once its SELECT has succeeded, on a store
      that already holds the new upload `newFile`, if any: that upload makes the
      old file go first, then the UPDATE runs. */
  function Update(id: nat, req: Submission, newFile: Option<FileName>, updateFails: bool, st: Store): (o: Outcome)
    ensures o.store.majors == st.majors && o.store.nextId == st.nextId
    ensures o.response == (if updateFails then Error(500, UpdateFailed) else Ok(Message(Updated)))
    ensures updateFails || id !in st.rows ==> o.store.rows == st.rows
    ensures !updateFails && id in st.rows ==>
      o.store.rows == st.rows[id := Row(req.fname, req.lname, req.email, req.major, req.address,
                                         if newFile.Some? then newFile else st.rows[id].profile)]
    ensures newFile.Some? && id in st.rows && st.rows[id].profile.Some? ==>
      o.store.blobs == Unlink(st.blobs, st.rows[id].profile.value)
    ensures !(newFile.Some? && id in st.rows && st.rows[id].profile.Some?) ==> o.store.blobs == st.blobs
    ensures Valid(st) ==> Valid(o.store)
  {
    var blobs :=
      if newFile.Some? && id in st.rows && st.rows[id].profile.Some?
      then Unlink(st.blobs, st.rows[id].profile.value)
      else st.blobs;
    var st1 := st.(blobs := blobs);
    if updateFails then Outcome(Error(500, UpdateFailed), st1)
    else if id !in st.rows then Outcome(Ok(Message(Updated)), st1)
    else
      var profile := if newFile.Some? then newFile else st.rows[id].profile;
      var row := Row(req.fname, req.lname, req.email, req.major, req.address, profile);
      Outcome(Ok(Message(Updated)), st1.(rows := st.rows[id := row]))
  }

  /** What `POST /modify/:id` does to the upload directory. Without a new image
      nothing goes. With one, the only file that can go is the one the row named
      before, and it goes as soon as the SELECT succeeded, whether or not the
      UPDATE then does. */
  lemma ModifyFileEffects(id: nat, req: Submission, stamp: Stamp, selectFails: bool, updateFails: bool, st: Store)
    requires FreshFor(req.image, stamp, st.blobs)
    ensures var o := ModifyStudent(id, req, stamp, selectFails, updateFails, st);
      && (req.image.None? ==> o.store.blobs == st.blobs)
      && (forall n :: n in st.blobs && n !in o.store.blobs ==> RefersTo(st, id, n) && req.image.Some?)
      && (!(req.image.Some? && !Acceptable(req.image.value)) ==>
            var landed := Receive(req.image, stamp, st.blobs).blobs;
            && (forall n :: n in o.store.blobs ==> n in landed && o.store.blobs[n] == landed[n])
            && (forall n :: n in landed && n !in o.store.blobs ==> RefersTo(st, id, n)))
      && (req.image.Some? && Acceptable(req.image.value) && RequiredPresent(req) && !selectFails ==>
            forall n :: RefersTo(st, id, n) ==> n !in o.store.blobs)
  {
    var o := ModifyStudent(id, req, stamp, selectFails, updateFails, st);
    var intake := Receive(req.image, stamp, st.blobs);
    var landed := intake.blobs;
    if intake.received.Refused? {
      assert o.store == st;
    } else if !RequiredPresent(req) || selectFails {
      assert o.store.blobs == landed;
    } else if intake.received.Stored? && id in st.rows && st.rows[id].profile.Some? {
      var p := st.rows[id].profile.value;
      assert o.store.blobs == Unlink(landed, p);
      UnlinkOnly(landed, p, st.blobs);
      forall n | RefersTo(st, id, n) ensures n !in o.store.blobs {
        assert n == p;
      }
    } else {
      assert o.store.blobs == landed;
      assert forall n :: n in st.blobs ==> n in landed;
    }
  }

  /** Unlinking `p` from a directory that extends `before` keeps everything but `p`. */
  lemma UnlinkOnly(landed: map<FileName, Bytes>, p: FileName, before: map<FileName, Bytes>)
    requires forall n :: n in before ==> n in landed
    ensures forall n :: n in before && n !in Unlink(landed, p) ==> n == p
    ensures p !in Unlink(landed, p)
  {
  }
}

=== FILE: store.dfy ===
/** The state the student routes work on: the `students` and `major` tables,
    the upload directory, and the table's auto-increment counter. */
module Store {
  import opened Wrappers
  import opened Wire

  /** One row of `students` (without its key). `profile` is the `Profile`
      column: the name of the student's image in the upload directory, or NULL. */
  datatype Row = Row(
    fname: string,
    lname: string,
    email: string,
    major: string,
    address: string,
    profile: Option<FileName>)

  datatype Store = Store(
    rows: map<nat, Row>,             // students, keyed by StdID
    blobs: map<FileName, Bytes>,     // the upload directory
    majors: map<string, string>,     // major: MajorCode -> Description
    nextId: nat)                     // the next AUTO_INCREMENT value

  /** An empty `students` table and upload directory next to a given `major` table. */
  function Initial(majors: map<string, string>): (st: Store)
    ensures Valid(st) && Consistent(st)
  {
    Store(map[], map[], majors, 1)
  }

  /** Every key was handed out by the counter, so the counter is fresh. */
  predicate Valid(st: Store) {
    forall id :: id in st.rows ==> id < st.nextId
  }

  /** Row `id` names blob `n` as its profile image. */
  predicate RefersTo(st: Store, id: nat, n: FileName) {
    id in st.rows && st.rows[id].profile == Some(n)
  }

  /** Some row names blob `n`. */
  ghost predicate Referenced(st: Store, n: FileName) {
    exists id :: RefersTo(st, id, n)
  }

  /** Blob `n` is on disk but no row names it. */
  ghost predicate Orphan(st: Store, n: FileName) {
    n in st.blobs && !Referenced(st, n)
  }

  /** Row `id` names a blob that is not on disk. */
  predicate Dangling(st: Store, id: nat) {
    id in st.rows && st.rows[id].profile.Some? && st.rows[id].profile.value !in st.blobs
  }

  /** No two rows share a blob. */
  ghost predicate Exclusive(st: Store) {
    forall i, j, n :: RefersTo(st, i, n) && RefersTo(st, j, n) ==> i == j
  }

  /** The two storage systems agree: every named blob exists and belongs to one row. */
  ghost predicate Consistent(st: Store) {
    && (forall id :: !Dangling(st, id))
    && Exclusive(st)
  }

  // ----- the steps a route takes, and what each does to consistency -----

  /** Writing a file nobody names yet keeps the store consistent. */
  lemma AddBlobKeepsConsistent(st: Store, n: FileName, content: Bytes)
    requires Consistent(st)
    ensures Consistent(st.(blobs := st.blobs[n := content]))
  {
    var st' := st.(blobs := st.blobs[n := content]);
    forall id ensures !Dangling(st', id) {
      assert !Dangling(st, id);
    }
    assert forall i, m :: RefersTo(st', i, m) <==> RefersTo(st, i, m);
  }

  /** Removing a file no row names keeps the store consistent. */
  lemma DropBlobKeepsConsistent(st: Store, n: FileName)
    requires Consistent(st) && !Referenced(st, n)
    ensures Consistent(st.(blobs := st.blobs - {n}))
  {
    var st' := st.(blobs := st.blobs - {n});
    forall id ensures !Dangling(st', id) {
      assert !Dangling(st, id);
      if id in st.rows && st.rows[id].profile.Some? {
        assert RefersTo(st, id, st.rows[id].profile.value);
      }
    }
    assert forall i, m :: RefersTo(st', i, m) <==> RefersTo(st, i, m);
  }

  /** Writing row `id` keeps the store consistent when the row names no file, the
      file the old row `id` named, or a file on disk that no row names. */
  lemma PutRowKeepsConsistent(st: Store, id: nat, row: Row)
    requires Consistent(st)
    requires || row.profile.None?
             || (id in st.rows && row.profile == st.rows[id].profile)
             || (row.profile.value in st.blobs && !Referenced(st, row.profile.value))
    ensures Consistent(st.(rows := st.rows[id := row]))
  {
    var st' := st.(rows := st.rows[id := row]);
    forall j ensures !Dangling(st', j) {
      assert !Dangling(st, j);
    }
    forall i, j, n | RefersTo(st', i, n) && RefersTo(st', j, n)
      ensures i == j
    {
      if i != id && j != id {
        assert RefersTo(st, i, n) && RefersTo(st, j, n);
      } else if i != id {
        assert RefersTo(st, i, n);
        if id in st.rows && row.profile == st.rows[id].profile {
          assert RefersTo(st, id, n);
        }
      } else if j != id {
        assert RefersTo(st, j, n);
        if id in st.rows && row.profile == st.rows[id].profile {
          assert RefersTo(st, id, n);
        }
      }
    }
  }

  /** Consistency does not depend on the counter. */
  lemma CounterIrrelevant(st: Store, k: nat)
    requires Consistent(st)
    ensures Consistent(st.(nextId := k))
  {
    var st' := st.(nextId := k);
    assert forall i, n :: RefersTo(st', i, n) <==> RefersTo(st, i, n);
    assert forall i :: Dangling(st', i) <==> Dangling(st, i);
  }

  /** Pointing row `id` elsewhere leaves the file it named unnamed, since no other
      row shared it. */
  lemma RepointFreesOld(st: Store, id: nat, row: Row, n: FileName)
    requires Exclusive(st) && RefersTo(st, id, n) && row.profile != Some(n)
    ensures !Referenced(st.(rows := st.rows[id := row]), n)
  {
    var st' := st.(rows := st.rows[id := row]);
    forall j | RefersTo(st', j, n)
      ensures false
    {
      assert RefersTo(st, j, n);
    }
  }
}

=== FILE: studentform.dfy ===
/** The student form of the add and update pages: its state, the three event
    handlers (`handleChange`, `handleImageChange`, `handleSubmit`), the
    validation chain and the multipart payload. Both pages run the same code. */
module StudentForm {
  import opened Wrappers
  import opened Text
  import opened Wire

  /** `formData`: five text values and the selected image file, or null. */
  datatype Form = Form(
    fname: string,
    lname: string,
    email: string,
    major: string,
    address: string,
    image: Option<FileBlob>)

  const EmptyForm := Form("", "", "", "", "", None)

  /** The part of a page's state the handlers change: the form and the error line. */
  datatype Page = Page(form: Form, error: string)

  const StartPage := Page(EmptyForm, "")

  // ----- handleChange -----

  /** The text inputs of the form, by their `name` attribute. */
  datatype Input = FnameInput | LnameInput | EmailInput | MajorInput | AddressInput

  /** The form value an input shows. */
  function Value(f: Form, k: Input): string {
    match k
    case FnameInput => f.fname
    case LnameInput => f.lname
    case EmailInput => f.email
    case MajorInput => f.major
    case AddressInput => f.address
  }

  /** `handleChange`: `{ ...prev, [name]: value }`. */
  function HandleChange(p: Page, k: Input, value: string): (r: Page)
    ensures Value(r.form, k) == value
    ensures forall other :: other != k ==> Value(r.form, other) == Value(p.form, other)
    ensures r.form.image == p.form.image && r.error == p.error
  {
    var f := p.form;
    var g := match k
      case FnameInput => f.(fname := value)
      case LnameInput => f.(lname := value)
      case EmailInput => f.(email := value)
      case MajorInput => f.(major := value)
      case AddressInput => f.(address := value);
    p.(form := g)
  }

  /** Typing the old value back undoes a change. */
  lemma HandleChangeUndo(p: Page, k: Input, value: string)
    ensures HandleChange(HandleChange(p, k, value), k, Value(p.form, k)) == p
  {
    var q := HandleChange(HandleChange(p, k, value), k, Value(p.form, k));
    assert forall other :: Value(q.form, other) == Value(p.form, other);
    FormByValues(q.form, p.form);
  }

  /** Changes to two different inputs can happen in either order. */
  lemma HandleChangeCommutes(p: Page, k: Input, v: string, k': Input, v': string)
    requires k != k'
    ensures HandleChange(HandleChange(p, k, v), k', v') == HandleChange(HandleChange(p, k', v'), k, v)
  {
    var a := HandleChange(HandleChange(p, k, v), k', v');
    var b := HandleChange(HandleChange(p, k', v'), k, v);
    assert forall other :: Value(a.form, other) == Value(b.form, other);
    FormByValues(a.form, b.form);
  }

  /** A form is its five input values and its image. */
  lemma FormByValues(f: Form, g: Form)
    requires forall k :: Value(f, k) == Value(g, k)
    requires f.image == g.image
    ensures f == g
  {
    assert Value(f, FnameInput) == Value(g, FnameInput);
    assert Value(f, LnameInput) == Value(g, LnameInput);
    assert Value(f, EmailInput) == Value(g, EmailInput);
    assert Value(f, MajorInput) == Value(g, MajorInput);
    assert Value(f, AddressInput) == Value(g, AddressInput);
  }

  // ----- handleImageChange -----

  const TooLarge := "Image size must be less than 5MB"
  const WrongType := "Only JPEG, PNG, and GIF images are allowed"
  const AllowedTypes: seq<string> := ["image/jpeg", "image/jpg", "image/png", "image/gif"]

  /** The page's rule for a chosen file: at most 5 MiB and one of the four types. */
  predicate ClientAccepts(f: FileBlob) {
    f.Size() <= MaxImageBytes && f.mimeType in AllowedTypes
  }

  /** `handleImageChange` for the first chosen file, or for none. The size is
      checked before the type; a refused file leaves the selected image as it was. */
  function HandleImageChange(p: Page, file: Option<FileBlob>): (r: Page)
    ensures file.None? ==> r == p
    ensures file.Some? && file.value.Size() > MaxImageBytes ==> r == p.(error := TooLarge)
    ensures file.Some? && file.value.Size() <= MaxImageBytes && file.value.mimeType !in AllowedTypes ==>
      r == p.(error := WrongType)
    ensures file.Some? ==> (r.form.image == file <==> ClientAccepts(file.value) || p.form.image == file)
    ensures file.Some? ==> (r.error == "" <==> ClientAccepts(file.value))
    ensures r.form.(image := p.form.image) == p.form
  {
    match file
    case None => p
    case Some(f) =>
      if f.Size() > MaxImageBytes then p.(error := TooLarge)
      else if f.mimeType !in AllowedTypes then p.(error := WrongType)
      else Page(p.form.(image := file), "")
  }

  /** The selected image, if any, passed the page's rule. */
  predicate ImageChecked(f: Form) {
    f.image.Some? ==> ClientAccepts(f.image.value)
  }

  /** Whatever the user does, the form only ever holds an image the page accepted. */
  lemma HandlersKeepImageChecked(p: Page, k: Input, value: string, file: Option<FileBlob>)
    requires ImageChecked(p.form)
    ensures ImageChecked(HandleChange(p, k, value).form)
    ensures ImageChecked(HandleImageChange(p, file).form)
  {
  }

  // ----- handleSubmit: validation -----

  const FnameRequired := "First name is required"
  const LnameRequired := "Last name is required"
  const EmailRequired := "Email is required"
  const EmailInvalid := "Please enter a valid email address"
  const MajorRequired := "Major is required"
  const AddressRequired := "Address is required"

  /** The checks a form must pass, each with its complaint. */
  datatype Rule = FnameGiven | LnameGiven | EmailGiven | EmailShaped | MajorChosen | AddressGiven

  /** The order in which the page checks them. */
  const Rules: seq<Rule> := [FnameGiven, LnameGiven, EmailGiven, EmailShaped, MajorChosen, AddressGiven]

  /** What each check asks: a visible character in the names, the email and the
      address; an '@' and a '.' anywhere in the email as typed; any major. */
  predicate Holds(rule: Rule, f: Form) {
    match rule
    case FnameGiven => !Blank(f.fname)
    case LnameGiven => !Blank(f.lname)
    case EmailGiven => !Blank(f.email)
    case EmailShaped => '@' in f.email && '.' in f.email
    case MajorChosen => f.major != []
    case AddressGiven => !Blank(f.address)
  }

  function Complaint(rule: Rule): string {
    match rule
    case FnameGiven => FnameRequired
    case LnameGiven => LnameRequired
    case EmailGiven => EmailRequired
    case EmailShaped => EmailInvalid
    case MajorChosen => MajorRequired
    case AddressGiven => AddressRequired
  }

  /** `rules[i]` fails and every earlier check in `rules` passes. */
  predicate FirstBrokenIn(rules: seq<Rule>, i: int, f: Form) {
    && 0 <= i < |rules|
    && !Holds(rules[i], f)
    && forall j :: 0 <= j < i ==> Holds(rules[j], f)
  }

  predicate FirstBroken(i: int, f: Form) {
    FirstBrokenIn(Rules, i, f)
  }

  /** The condition each `if` of `handleSubmit` tests, as written: `!x.trim()` for
      the names, the email and the address, `!email.includes('@') ||
      !email.includes('.')`, and `!major`. */
  predicate Fails(rule: Rule, f: Form) {
    match rule
    case FnameGiven => Trim(f.fname) == []
    case LnameGiven => Trim(f.lname) == []
    case EmailGiven => Trim(f.email) == []
    case EmailShaped => !Occurs("@", f.email) || !Occurs(".", f.email)
    case MajorChosen => f.major == []
    case AddressGiven => Trim(f.address) == []
  }

  /** `s.includes(c)` for a one-character search string. */
  lemma IncludesChar(c: char, s: string)
    ensures Occurs([c], s) <==> c in s
  {
    if Occurs([c], s) {
      var i :| OccursAt([c], s, i);
      assert s[i..i + 1][0] == s[i];
    }
    if c in s {
      var i :| 0 <= i < |s| && s[i] == c;
      assert OccursAt([c], s, i);
    }
  }

  /** Each test fails exactly when its check is broken. */
  lemma FailsIffBroken(rule: Rule, f: Form)
    ensures Fails(rule, f) <==> !Holds(rule, f)
  {
    IncludesChar('@', f.email);
    IncludesChar('.', f.email);
  }

  /** The first of `rules` whose test fails, trying them in order. */
  function FirstFailure(rules: seq<Rule>, f: Form): (r: Option<Rule>)
    ensures r.None? <==> forall i :: 0 <= i < |rules| ==> Holds(rules[i], f)
    ensures r.Some? ==> exists i :: FirstBrokenIn(rules, i, f) && rules[i] == r.value
  {
    if rules == [] then None
    else
      FailsIffBroken(rules[0], f);
      if Fails(rules[0], f) then
        assert FirstBrokenIn(rules, 0, f);
        Some(rules[0])
      else
        PassedHead(rules, f);
        FirstFailure(rules[1..], f)
  }

  /** Once the first check passes, the rest decide: every check holds when every
      later one does, and a first broken later check is the first broken one. */
  lemma PassedHead(rules: seq<Rule>, f: Form)
    requires rules != [] && Holds(rules[0], f)
    ensures (forall i :: 0 <= i < |rules| ==> Holds(rules[i], f)) <==>
            (forall i :: 0 <= i < |rules[1..]| ==> Holds(rules[1..][i], f))
    ensures forall i :: FirstBrokenIn(rules[1..], i, f) ==> FirstBrokenIn(rules, i + 1, f)
  {
    if forall i :: 0 <= i < |rules[1..]| ==> Holds(rules[1..][i], f) {
      forall i | 0 <= i < |rules| ensures Holds(rules[i], f) {
        if i > 0 { assert rules[i] == rules[1..][i - 1]; }
      }
    }
  }

  /** The validation chain of `handleSubmit`: the message of the first failing
      check, or nothing when every check passes. */
  function Validate(f: Form): (r: Option<string>)
    ensures r.None? <==> forall i :: 0 <= i < |Rules| ==> Holds(Rules[i], f)
    ensures r.Some? ==> exists i :: FirstBroken(i, f) && r.value == Complaint(Rules[i])
  {
    match FirstFailure(Rules, f)
    case None => None
    case Some(rule) => Some(Complaint(rule))
  }

  /** In plain terms: a form passes exactly when the first name, last name, email
      and address each hold a visible character, the email holds an '@' and a '.',
      and a major is chosen. */
  lemma ValidateAcceptsExactly(f: Form)
    ensures Validate(f).None? <==>
      && !Blank(f.fname) && !Blank(f.lname) && !Blank(f.email)
      && '@' in f.email && '.' in f.email
      && f.major != [] && !Blank(f.address)
  {
    assert Rules[0] == FnameGiven && Rules[1] == LnameGiven && Rules[2] == EmailGiven;
    assert Rules[3] == EmailShaped && Rules[4] == MajorChosen && Rules[5] == AddressGiven;
  }

  /** At most one check is the first to fail, so the message names it. */
  lemma FirstBrokenUnique(i: int, j: int, f: Form)
    requires FirstBroken(i, f) && FirstBroken(j, f)
    ensures i == j
  {
  }

  /** No two checks share a message, so the message shown identifies the check. */
  lemma {:induction false} ValidateNamesTheCheck(f: Form, rule: Rule)
    requires Validate(f) == Some(Complaint(rule))
    ensures exists i :: FirstBroken(i, f) && Rules[i] == rule
  {
    var i :| FirstBroken(i, f) && Complaint(rule) == Complaint(Rules[i]);
    assert Rules[i] == rule by {
      match rule
      case FnameGiven =>
      case LnameGiven =>
      case EmailGiven =>
      case EmailShaped =>
      case MajorChosen =>
      case AddressGiven =>
    }
  }

  /** A whitespace-only first name is reported before anything else. */
  lemma BlankFirstNameReportedFirst(f: Form)
    requires Blank(f.fname)
    ensures Validate(f) == Some(FnameRequired)
  {
    assert FirstBroken(0, f);
    if Validate(f).Some? {
      var i :| FirstBroken(i, f) && Validate(f).value == Complaint(Rules[i]);
      FirstBrokenUnique(i, 0, f);
    }
  }

  /** With both names and the email filled in, an email without '@' is what is
      reported. */
  lemma MissingAtReported(f: Form)
    requires !Blank(f.fname) && !Blank(f.lname) && !Blank(f.email) && '@' !in f.email
    ensures Validate(f) == Some(EmailInvalid)
  {
    assert FirstBroken(3, f);
    var i :| FirstBroken(i, f) && Validate(f).value == Complaint(Rules[i]);
    FirstBrokenUnique(i, 3, f);
  }

  // ----- handleSubmit: payload -----

  /** The multipart body: the four free-text fields trimmed, the major as chosen,
      and the image part only when a file is selected.  `TrimmedFrom` pins each
      text field down completely (see `Text.TrimmedFromIsTrim`). */
  function Payload(f: Form): (s: Submission)
    ensures s.major == f.major && s.image == f.image
    ensures TrimmedFrom(s.fname, f.fname) && TrimmedFrom(s.lname, f.lname)
    ensures TrimmedFrom(s.email, f.email) && TrimmedFrom(s.address, f.address)
    ensures s.fname == [] <==> Blank(f.fname)
    ensures s.lname == [] <==> Blank(f.lname)
    ensures s.email == [] <==> Blank(f.email)
    ensures s.address == [] <==> Blank(f.address)
  {
    Submission(Trim(f.fname), Trim(f.lname), Trim(f.email), f.major, Trim(f.address), f.image)
  }

  /** What the payload of a form that passed validation looks like: no field is
      empty, no trimmed field begins or ends with whitespace, and the email still
      holds its '@' and '.'. */
  lemma PayloadOfValidForm(f: Form)
    requires Validate(f).None?
    ensures var s := Payload(f);
      && Tidy(s.fname) && Tidy(s.lname) && Tidy(s.email) && Tidy(s.address) && s.major != []
      && '@' in s.email && '.' in s.email
  {
    ValidateAcceptsExactly(f);
    TrimmedTidy(f.fname);
    TrimmedTidy(f.lname);
    TrimmedTidy(f.email);
    TrimmedTidy(f.address);
    TrimKeepsVisible(f.email, '@');
    TrimKeepsVisible(f.email, '.');
  }

  /** Submitting the submitted values again sends the same payload. */
  lemma PayloadStable(f: Form)
    ensures var s := Payload(f);
      Payload(Form(s.fname, s.lname, s.email, s.major, s.address, s.image)) == s
  {
    TrimIdempotent(f.fname);
    TrimIdempotent(f.lname);
    TrimIdempotent(f.email);
    TrimIdempotent(f.address);
  }

  /** The result of `handleSubmit` up to the request: blocked with a message, or
      the error cleared and the payload posted. */
  datatype Submit = Blocked(page: Page) | Sent(page: Page, payload: Submission)

  /** `handleSubmit`. A failing check sets its message and nothing is sent. */
  function HandleSubmit(p: Page): (r: Submit)
    ensures r.Blocked? <==> exists i :: FirstBroken(i, p.form)
    ensures r.Blocked? ==> r.page.form == p.form && exists i :: FirstBroken(i, p.form) && r.page.error == Complaint(Rules[i])
    ensures r.Sent? ==> r.page == p.(error := "") && r.payload == Payload(p.form)
  {
    var v := Validate(p.form);
    if v.Some? then Blocked(p.(error := v.value))
    else
      assert forall i :: !FirstBroken(i, p.form);
      Sent(p.(error := ""), Payload(p.form))
  }
}

=== FILE: text.dfy ===
/** String operations of the JavaScript runtime that the application relies on:
    `trim`, `includes`, an unanchored regular-expression test, `toLowerCase`
    and the decimal rendering of a number. */
module Text {

  /** The characters `String.prototype.trim` removes: ECMAScript WhiteSpace
      (tab, vertical tab, form feed, space, no-break space, the byte-order mark
      and every space separator) and LineTerminator. */
  predicate IsSpace(c: char) {
    || c == '\t' || c == '\n' || c == '\U{000B}' || c == '\U{000C}' || c == '\r'
    || c == ' ' || c == '\U{00A0}' || c == '\U{1680}'
    || ('\U{2000}' <= c <= '\U{200A}')
    || c == '\U{2028}' || c == '\U{2029}' || c == '\U{202F}' || c == '\U{205F}'
    || c == '\U{3000}' || c == '\U{FEFF}'
  }

  /** `!s.trim()`: the string is empty or consists of white space only. */
  predicate Blank(s: string) {
    forall i :: 0 <= i < |s| ==> IsSpace(s[i])
  }

  /** Number of white-space characters at the start of `s`. */
  function LeadingSpaces(s: string): (n: nat)
    ensures n <= |s|
    ensures forall i :: 0 <= i < n ==> IsSpace(s[i])
    ensures n < |s| ==> !IsSpace(s[n])
  {
    if |s| > 0 && IsSpace(s[0]) then 1 + LeadingSpaces(s[1..]) else 0
  }

  /** Number of white-space characters at the end of `s`. */
  function TrailingSpaces(s: string): (n: nat)
    ensures n <= |s|
    ensures forall i :: |s| - n <= i < |s| ==> IsSpace(s[i])
    ensures n < |s| ==> !IsSpace(s[|s| - n - 1])
  {
    if |s| > 0 && IsSpace(s[|s| - 1]) then 1 + TrailingSpaces(s[..|s| - 1]) else 0
  }

  /** `r` is what remains of `s` once two all-white-space margins are cut off,
      and it neither starts nor ends with white space. */
  predicate TrimmedFrom(r: string, s: string) {
    && (exists k :: 0 <= k <= |s| - |r| && r == s[k..k + |r|] && Blank(s[..k]) && Blank(s[k + |r|..]))
    && (r == [] || Tidy(r))
  }

  /** `s.trim()`: the longest infix of `s` that neither starts nor ends with
      white space, cut out of `s` between two all-white-space margins. */
  function Trim(s: string): (r: string)
    ensures |r| <= |s|
    ensures r == [] <==> Blank(s)
    ensures TrimmedFrom(r, s)
  {
    var lo := LeadingSpaces(s);
    if lo == |s| then
      CutMargins(s, 0, 0);
      []
    else
      var hi := |s| - TrailingSpaces(s);
      assert lo < hi;
      CutMargins(s, lo, hi);
      s[lo..hi]
  }

  /** Cutting white-space margins off down to visible ends leaves a trimmed string. */
  lemma CutMargins(s: string, lo: nat, hi: nat)
    requires lo <= hi <= |s|
    requires forall i :: 0 <= i < lo ==> IsSpace(s[i])
    requires forall i :: hi <= i < |s| ==> IsSpace(s[i])
    requires lo < hi ==> !IsSpace(s[lo]) && !IsSpace(s[hi - 1])
    ensures TrimmedFrom(s[lo..hi], s)
  {
    var r := s[lo..hi];
    assert r == s[lo..lo + |r|];
    assert Blank(s[..lo]) by {
      forall i | 0 <= i < lo ensures IsSpace(s[..lo][i]) { assert s[..lo][i] == s[i]; }
    }
    assert Blank(s[hi..]) by {
      forall i | 0 <= i < |s| - hi ensures IsSpace(s[hi..][i]) { assert s[hi..][i] == s[hi + i]; }
    }
    if lo < hi {
      assert r[0] == s[lo] && r[|r| - 1] == s[hi - 1];
    }
  }

  /** Trimming is the only way to cut `s` down to a string without white space at
      either end: any such `r` is `Trim(s)`. */
  lemma TrimmedFromIsTrim(r: string, s: string)
    requires TrimmedFrom(r, s)
    ensures r == Trim(s)
  {
    var k :| 0 <= k <= |s| - |r| && r == s[k..k + |r|] && Blank(s[..k]) && Blank(s[k + |r|..]);
    if r == [] {
      BlankMargins(s, k, k);
    } else {
      TidyInfixIsTrim(r, s, k);
    }
  }

  lemma TidyInfixIsTrim(r: string, s: string, k: nat)
    requires k + |r| <= |s| && r == s[k..k + |r|] && Tidy(r)
    requires Blank(s[..k]) && Blank(s[k + |r|..])
    ensures r == Trim(s)
  {
    var m := k + |r|;
    SpacesBefore(s, k);
    SpacesAfter(s, m);
    assert s[k] == r[0] && s[m - 1] == r[|r| - 1];
    LeadingSpacesAt(s, k);
    TrailingSpacesAt(s, m);
  }

  /** Two blank margins that meet make the whole string blank. */
  lemma BlankMargins(s: string, k: nat, m: nat)
    requires k == m <= |s| && Blank(s[..k]) && Blank(s[m..])
    ensures Blank(s)
  {
    forall i | 0 <= i < |s| ensures IsSpace(s[i]) {
      if i < k { assert s[..k][i] == s[i]; } else { assert s[m..][i - m] == s[i]; }
    }
  }

  lemma SpacesBefore(s: string, k: nat)
    requires k <= |s| && Blank(s[..k])
    ensures forall i :: 0 <= i < k ==> IsSpace(s[i])
  {
    forall i | 0 <= i < k ensures IsSpace(s[i]) { assert s[..k][i] == s[i]; }
  }

  lemma SpacesAfter(s: string, m: nat)
    requires m <= |s| && Blank(s[m..])
    ensures forall i :: m <= i < |s| ==> IsSpace(s[i])
  {
    forall i | m <= i < |s| ensures IsSpace(s[i]) { assert s[m..][i - m] == s[i]; }
  }

  /** White space up to a visible character at `k` is exactly the leading white space. */
  lemma LeadingSpacesAt(s: string, k: nat)
    requires k < |s| && !IsSpace(s[k])
    requires forall i :: 0 <= i < k ==> IsSpace(s[i])
    ensures LeadingSpaces(s) == k
  {
  }

  /** White space from `m` on, after a visible character, is exactly the trailing white space. */
  lemma TrailingSpacesAt(s: string, m: nat)
    requires 0 < m <= |s| && !IsSpace(s[m - 1])
    requires forall i :: m <= i < |s| ==> IsSpace(s[i])
    ensures TrailingSpaces(s) == |s| - m
  {
  }

  /** Trimming twice is trimming once. */
  lemma TrimIdempotent(s: string)
    ensures Trim(Trim(s)) == Trim(s)
  {
    var r := Trim(s);
    if r != [] {
      assert LeadingSpaces(r) == 0;
      assert TrailingSpaces(r) == 0;
    }
  }

  /** Non-empty, with a visible character at each end: what trimming leaves of a
      string that is not blank. */
  predicate Tidy(s: string) {
    s != [] && !IsSpace(s[0]) && !IsSpace(s[|s| - 1])
  }

  lemma TrimmedTidy(s: string)
    requires !Blank(s)
    ensures Tidy(Trim(s))
  {
  }

  /** A character that is not white space occurs in `s` exactly when it occurs in `s.trim()`:
      trimming only ever removes white space. */
  lemma TrimKeepsVisible(s: string, c: char)
    requires !IsSpace(c)
    ensures c in s <==> c in Trim(s)
  {
    var lo := LeadingSpaces(s);
    if lo == |s| {
      assert Trim(s) == s[lo..lo];
      MarginsKeepVisible(s, lo, lo, c);
    } else {
      var hi := |s| - TrailingSpaces(s);
      assert Trim(s) == s[lo..hi];
      MarginsKeepVisible(s, lo, hi, c);
    }
  }

  /** Cutting white-space margins off `s` keeps every visible character. */
  lemma MarginsKeepVisible(s: string, lo: int, hi: int, c: char)
    requires 0 <= lo <= hi <= |s| && !IsSpace(c)
    requires forall i :: 0 <= i < lo ==> IsSpace(s[i])
    requires forall i :: hi <= i < |s| ==> IsSpace(s[i])
    ensures c in s <==> c in s[lo..hi]
  {
    if c in s {
      var i :| 0 <= i < |s| && s[i] == c;
      assert lo <= i < hi;
      assert s[lo..hi][i - lo] == c;
    }
  }

  /** `t` sits in `s` starting at position `i`. */
  predicate OccursAt(t: string, s: string, i: int) {
    0 <= i <= |s| - |t| && s[i..i + |t|] == t
  }

  /** Whether `t` occurs in `s` as a contiguous piece, which is what an unanchored
      regular-expression test for the literal `t` answers. */
  function Occurs(t: string, s: string): (b: bool)
    ensures b <==> exists i :: OccursAt(t, s, i)
    decreases |s|
  {
    if |s| < |t| then false
    else if s[..|t|] == t then
      assert OccursAt(t, s, 0);
      true
    else
      OccurrenceShift(t, s);
      Occurs(t, s[1..])
  }

  /** An occurrence in `s[1..]` is an occurrence in `s` one position further on,
      and every occurrence in `s` other than at the front is one of those. */
  lemma OccurrenceShift(t: string, s: string)
    requires |s| >= 1 && !OccursAt(t, s, 0)
    ensures (exists i :: OccursAt(t, s[1..], i)) <==> (exists i :: OccursAt(t, s, i))
  {
    if exists i :: OccursAt(t, s[1..], i) {
      var i :| OccursAt(t, s[1..], i);
      assert s[i + 1..i + 1 + |t|] == s[1..][i..i + |t|];
      assert OccursAt(t, s, i + 1);
    }
    if exists i :: OccursAt(t, s, i) {
      var i :| OccursAt(t, s, i);
      assert i > 0;
      assert s[1..][i - 1..i - 1 + |t|] == s[i..i + |t|];
      assert OccursAt(t, s[1..], i - 1);
    }
  }

  /** `toLowerCase` on one character, for the ASCII letters. */
  function LowerChar(c: char): char {
    if 'A' <= c <= 'Z' then (c as int + 32) as char else c
  }

  /** `toLowerCase`, for the ASCII letters. */
  function LowerAscii(s: string): (r: string)
    ensures |r| == |s|
    ensures forall i :: 0 <= i < |s| ==> r[i] == LowerChar(s[i])
  {
    if s == [] then [] else [LowerChar(s[0])] + LowerAscii(s[1..])
  }

  /** Text without upper-case ASCII letters is already lower case. */
  lemma LowerAsciiKeepsLower(s: string)
    requires forall i :: 0 <= i < |s| ==> !('A' <= s[i] <= 'Z')
    ensures LowerAscii(s) == s
  {
    var r := LowerAscii(s);
    assert forall i :: 0 <= i < |s| ==> r[i] == s[i];
  }

  /** Lower-casing twice is lower-casing once. */
  lemma LowerAsciiIdempotent(s: string)
    ensures LowerAscii(LowerAscii(s)) == LowerAscii(s)
  {
    var r := LowerAscii(s);
    LowerAsciiKeepsLower(r);
  }

  predicate IsDigit(c: char) {
    '0' <= c <= '9'
  }

  predicate AllDigits(s: string) {
    forall i :: 0 <= i < |s| ==> IsDigit(s[i])
  }

  function DigitChar(d: nat): (c: char)
    requires d < 10
    ensures IsDigit(c)
  {
    ('0' as int + d) as char
  }

  /** The decimal text JavaScript produces when a non-negative integer is
      concatenated to a string: digits only, no leading zero. */
  function Decimal(n: nat): (s: string)
    ensures |s| >= 1
    ensures AllDigits(s)
    ensures s[0] == '0' ==> n == 0
  {
    if n < 10 then [DigitChar(n)] else Decimal(n / 10) + [DigitChar(n % 10)]
  }

  /** Reading a string of digits back as a number. */
  function DecimalValue(s: string): nat
    requires AllDigits(s)
  {
    if s == [] then 0 else DecimalValue(s[..|s| - 1]) * 10 + (s[|s| - 1] as int - '0' as int)
  }

  /** The decimal text of a number reads back as that number. */
  lemma {:induction false} DecimalRoundTrip(n: nat)
    ensures DecimalValue(Decimal(n)) == n
  {
    if n >= 10 {
      var d := Decimal(n / 10);
      assert (d + [DigitChar(n % 10)])[..|d|] == d;
      DecimalRoundTrip(n / 10);
    }
  }
}

=== FILE: updatestudent.dfy ===
/** What the update page adds to the shared form: loading the student, filling
    the form from it, and what an edit that changes nothing sends. */
module UpdateStudent {
  import opened Wrappers
  import opened Text
  import opened StudentForm

  /** The JSON of a fulfilled `GET /api/students/:id` as the page reads it: `error`,
      with "" standing for absent (every falsy value behaves alike), and the five
      columns, None when absent or null. */
  datatype Fetched = Fetched(
    error: string,
    fname: Option<string>,
    lname: Option<string>,
    email: Option<string>,
    major: Option<string>,
    address: Option<string>)

  /** The column an input is filled from. */
  function Column(d: Fetched, k: Input): Option<string> {
    match k
    case FnameInput => d.fname
    case LnameInput => d.lname
    case EmailInput => d.email
    case MajorInput => d.major
    case AddressInput => d.address
  }

  /** `x || ""` on a string column: a missing, null or empty value becomes "".
      The result is empty exactly when the column is falsy. */
  function OrEmpty(v: Option<string>): (s: string)
    ensures s == [] <==> v.None? || v == Some([])
    ensures v.None? ==> s == []
    ensures v.Some? ==> s == v.value
  {
    v.GetOr([])
  }

  /** The form filled from a fetched student: every input shows its column or "",
      and no new image is selected. */
  function Prefill(d: Fetched): (f: Form)
    ensures f.image.None?
    ensures forall k :: Value(f, k) == OrEmpty(Column(d, k))
  {
    Form(OrEmpty(d.fname), OrEmpty(d.lname), OrEmpty(d.email), OrEmpty(d.major), OrEmpty(d.address), None)
  }

  /** A request the page awaits: rejected (network failure or a non-2xx status), or
      fulfilled with its body. */
  datatype Reply<T> = Rejected | Fulfilled(data: T)

  const LoadFailed := "Failed to load student data. Please try again."

  /** The page once `fetchStudentAndMajors` is done: the form and error line, and
      the `student` state, set once a student without `error` arrived. */
  datatype Loaded = Loaded(page: Page, student: Option<Fetched>)

  /** `fetchStudentAndMajors`, run on the page as `prev` left it (on mount, with no
      student yet; again whenever `id` changes): a rejected request or a reply
      carrying `error` shows its message and stops before the form or the
      `student` state is touched; otherwise the form is filled, and the majors
      request, made only then, decides whether the error line is cleared or set. */
  function Load(prev: Loaded, student: Reply<Fetched>, majorsFail: bool): (r: Loaded)
    ensures student.Rejected? ==> r.page.error == LoadFailed
    ensures student.Fulfilled? && student.data.error != [] ==> r.page.error == student.data.error
    ensures !(student.Fulfilled? && student.data.error == []) ==>
      r.student == prev.student && r.page.form == prev.page.form
    ensures student.Fulfilled? && student.data.error == [] ==>
      && r.student == Some(student.data)
      && r.page.form == Prefill(student.data)
      && (majorsFail ==> r.page.error == LoadFailed)
      && (!majorsFail ==> r.page.error == [])
  {
    var p := prev.page;
    match student
    case Rejected => prev.(page := p.(error := LoadFailed))
    case Fulfilled(d) =>
      if d.error != [] then prev.(page := p.(error := d.error))
      else
        var filled := Page(Prefill(d), p.error);
        if majorsFail then Loaded(filled.(error := LoadFailed), Some(d))
        else Loaded(filled.(error := []), Some(d))
  }

  /** The page as it first renders: an empty form, no error and no student. */
  function Mounted(f: Form): Loaded {
    Loaded(Page(f, []), None)
  }

  /** The page renders the error alone, without the form, when there is an error
      and no student. */
  predicate ShowsForm(l: Loaded) {
    !(l.page.error != [] && l.student.None?)
  }

  /** After loading, the form is on screen exactly when a student was fetched, by
      this load or an earlier one. */
  lemma FormShownOnlyForFetched(prev: Loaded, student: Reply<Fetched>, majorsFail: bool)
    ensures ShowsForm(Load(prev, student, majorsFail)) <==> Load(prev, student, majorsFail).student.Some?
    ensures Load(prev, student, majorsFail).student.Some? <==>
      (student.Fulfilled? && student.data.error == []) || prev.student.Some?
  {
  }

  /** A freshly filled form holds no image, so it satisfies the page's image rule. */
  lemma PrefillImageChecked(d: Fetched)
    ensures ImageChecked(Prefill(d))
  {
  }

  /** Saving a freshly loaded student without touching the form sends its columns
      trimmed, the major as stored, and no image part, so the stored image stays. */
  lemma UntouchedEditSendsNoImage(d: Fetched, error: string)
    requires HandleSubmit(Page(Prefill(d), error)).Sent?
    ensures var s := HandleSubmit(Page(Prefill(d), error)).payload;
      && s.image.None?
      && s.major == OrEmpty(d.major)
      && s.fname == Trim(OrEmpty(d.fname)) && s.lname == Trim(OrEmpty(d.lname))
      && s.email == Trim(OrEmpty(d.email)) && s.address == Trim(OrEmpty(d.address))
  {
  }
}

=== FILE: upload.dfy ===
/** The upload middleware in front of `POST /add` and `POST /modify/:id`:
    the file filter, the 5 MiB size limit and the generated storage name. */
module Upload {
  import opened Wrappers
  import opened Text
  import opened Wire

  /** `s` with every trailing '/' removed. */
  function StripTrailingSlashes(s: string): (r: string)
    ensures r <= s
    ensures r == [] || r[|r| - 1] != '/'
    ensures forall i :: |r| <= i < |s| ==> s[i] == '/'
  {
    if |s| > 0 && s[|s| - 1] == '/' then StripTrailingSlashes(s[..|s| - 1]) else s
  }

  /** The part of `s` after its last '/'. */
  function LastSegment(s: string): (r: string)
    ensures IsSuffix(r, s)
    ensures '/' !in r
    ensures |r| < |s| ==> s[|s| - |r| - 1] == '/'
  {
    if |s| == 0 || s[|s| - 1] == '/' then []
    else
      var r := LastSegment(s[..|s| - 1]) + [s[|s| - 1]];
      assert s[..|s| - 1][|s| - |r|..] + [s[|s| - 1]] == s[|s| - |r|..];
      r
  }

  /** Position of the last `c` in `s`, or -1. */
  function LastIndexOf(c: char, s: string): (k: int)
    ensures -1 <= k < |s|
    ensures k >= 0 ==> s[k] == c
    ensures forall i :: k < i < |s| ==> s[i] != c
  {
    if |s| == 0 then -1
    else if s[|s| - 1] == c then |s| - 1
    else LastIndexOf(c, s[..|s| - 1])
  }

  /** The extension of one path segment: from its last '.' to its end, except
      that a segment with no dot, a segment whose only leading dot is its last
      dot (".profile") and the segment ".." have none. */
  function SegmentExt(seg: string): (r: string)
    ensures r == [] <==> Extensionless(seg)
    ensures r == [] || (r[0] == '.' && '.' !in r[1..] && |r| < |seg|)
    ensures IsSuffix(r, seg)
  {
    var d := LastIndexOf('.', seg);
    if d <= 0 || seg == ".." then []
    else
      var r := seg[d..];
      assert forall i :: 0 <= i < |r| - 1 ==> r[1..][i] == seg[d + 1 + i];
      r
  }

  /** A segment without extension: it has no '.' after its first character, or it
      is "..". */
  predicate Extensionless(seg: string) {
    seg == ".." || forall i :: 0 < i < |seg| ==> seg[i] != '.'
  }

  /** `r` ends `s`. */
  predicate IsSuffix(r: string, s: string) {
    |r| <= |s| && r == s[|s| - |r|..]
  }

  lemma SuffixTransitive(r: string, s: string, t: string)
    requires IsSuffix(r, s) && IsSuffix(s, t)
    ensures IsSuffix(r, t)
  {
    assert t[|t| - |s|..][|s| - |r|..] == t[|t| - |r|..];
  }

  /** Node's `path.extname` (POSIX): the extension of the last segment of the
      path once trailing slashes are dropped. It is empty exactly when that
      segment is extensionless, otherwise it starts with its only dot, and it
      ends the name without its trailing slashes. */
  function ExtName(name: string): (r: string)
    ensures r == [] <==> Extensionless(LastSegment(StripTrailingSlashes(name)))
    ensures r == [] || (r[0] == '.' && '.' !in r[1..])
    ensures '/' !in r
    ensures IsSuffix(r, StripTrailingSlashes(name))
  {
    var p := StripTrailingSlashes(name);
    var seg := LastSegment(p);
    var r := SegmentExt(seg);
    SuffixLacks(r, seg, '/');
    SuffixTransitive(r, seg, p);
    r
  }

  lemma SuffixLacks(r: string, s: string, c: char)
    requires IsSuffix(r, s) && c !in s
    ensures c !in r
  {
    assert forall i :: 0 <= i < |r| ==> r[i] == s[|s| - |r| + i];
  }

  /** `/jpeg|jpg|png|gif/.test(s)`: one of the four words occurs somewhere in `s`. */
  predicate ImagePattern(s: string) {
    Occurs("jpeg", s) || Occurs("jpg", s) || Occurs("png", s) || Occurs("gif", s)
  }

  /** The file filter: the MIME type as sent, and the lower-cased extension of
      the original name, must both match the pattern. */
  predicate PassesFilter(f: FileBlob) {
    ImagePattern(f.mimeType) && ImagePattern(LowerAscii(ExtName(f.name)))
  }

  /** The size limit: at most 5 MiB. */
  predicate WithinLimit(f: FileBlob) {
    f.Size() <= MaxImageBytes
  }

  /** What the middleware stores: a file that passes the filter and the limit. */
  predicate Acceptable(f: FileBlob) {
    PassesFilter(f) && WithinLimit(f)
  }

  /** The clock reading `Date.now()` and the value `Math.round(Math.random() * 1E9)`
      that the storage name is made of, supplied from outside. */
  datatype Stamp = Stamp(millis: nat, random: nat)

  /** The part of the storage name before the extension: `<millis>_<random>`. */
  function Stem(stamp: Stamp): (stem: string)
    ensures stem != [] && IsDigit(stem[0])
    ensures '.' !in stem && '/' !in stem
  {
    var d := Decimal(stamp.millis);
    AppendShape(d, "_");
    AppendShape(d + "_", Decimal(stamp.random));
    StemShape(d, Decimal(stamp.random));
    d + "_" + Decimal(stamp.random)
  }

  /** The storage name: `<millis>_<random><extension of the original name>`. */
  function StoredName(stamp: Stamp, original: string): (n: FileName)
    ensures IsSuffix(ExtName(original), n)
  {
    Join(Stem(stamp), ExtName(original))
  }

  /** A non-empty stem followed by an extension is a file name ending in that extension. */
  function Join(stem: string, ext: string): (n: FileName)
    requires stem != []
    ensures IsSuffix(ext, n)
  {
    AppendShape(stem, ext);
    stem + ext
  }

  /** The storage name starts with a digit, so it is never a hidden file. */
  lemma StoredNameStartsWithDigit(stamp: Stamp, original: string)
    ensures IsDigit(StoredName(stamp, original)[0])
  {
    AppendShape(Stem(stamp), ExtName(original));
  }

  /** A non-empty string keeps its first character, and ends in what is appended. */
  lemma AppendShape(a: string, b: string)
    requires a != []
    ensures (a + b)[0] == a[0]
    ensures IsSuffix(b, a + b)
  {
    assert (a + b)[|a|..] == b;
  }

  /** The upload a request brings needs a storage name nobody uses yet. The name
      is generated, and a file opened under it, as soon as the filter passes the
      file, before the size limit is known, so an oversized file needs one too. */
  predicate FreshFor(image: Option<FileBlob>, stamp: Stamp, blobs: map<FileName, Bytes>) {
    image.Some? && PassesFilter(image.value) ==> StoredName(stamp, image.value.name) !in blobs
  }

  /** What happened to the `image` part of a request. */
  datatype Received =
    | NoFile                  // the request carried no file
    | Stored(name: FileName)  // written to disk under `name`
    | Refused                 // filtered out or over the limit; nothing left on disk

  datatype Intake = Intake(received: Received, blobs: map<FileName, Bytes>)

  /** The middleware run on a request's `image` part before the route handler:
      the filter is asked first, the size limit is enforced while the file is
      written (and the partial file removed when it is exceeded), and an
      accepted file is written under its generated name. */
  function Receive(image: Option<FileBlob>, stamp: Stamp, blobs: map<FileName, Bytes>): (r: Intake)
    requires FreshFor(image, stamp, blobs)
    ensures image.None? ==> r == Intake(NoFile, blobs)
    ensures r.received.Refused? <==> image.Some? && !Acceptable(image.value)
    ensures r.received.Refused? ==> r.blobs == blobs
    ensures r.received.Stored? <==> image.Some? && Acceptable(image.value)
    ensures r.received.Stored? ==>
      && r.received.name == StoredName(stamp, image.value.name)
      && r.received.name !in blobs
      && r.blobs == blobs[r.received.name := image.value.content]
  {
    match image
    case None => Intake(NoFile, blobs)
    case Some(f) =>
      if !PassesFilter(f) then Intake(Refused, blobs)
      else if !WithinLimit(f) then Intake(Refused, blobs)
      else
        var n := StoredName(stamp, f.name);
        Intake(Stored(n), blobs[n := f.content])
  }

  /** The stored file keeps the original's extension: `path.extname` of the
      generated name is `path.extname` of the original name. */
  lemma StoredNameKeepsExtension(stamp: Stamp, original: string)
    ensures ExtName(StoredName(stamp, original)) == ExtName(original)
  {
    ExtNameAfterStem(Stem(stamp), ExtName(original));
  }

  /** For a name made of a dot-free, slash-free stem and an extension, `path.extname`
      gives back the extension. */
  lemma ExtNameAfterStem(stem: string, e: string)
    requires stem != [] && stem[0] != '.' && '.' !in stem && '/' !in stem
    requires e == [] || (e[0] == '.' && '.' !in e[1..])
    requires '/' !in e
    ensures ExtName(stem + e) == e
  {
    var n := stem + e;
    assert '/' !in n;
    assert StripTrailingSlashes(n) == n;
    LastSegmentOfSlashFree(n);
    SegmentExtAfterStem(stem, e);
  }

  /** `<digits>_<digits>` has neither a dot nor a slash and does not start with a dot. */
  lemma StemShape(a: string, b: string)
    requires |a| >= 1 && AllDigits(a) && AllDigits(b)
    ensures var stem := a + "_" + b; '.' !in stem && '/' !in stem && stem[0] != '.'
  {
    var stem := a + "_" + b;
    assert forall i :: 0 <= i < |stem| ==> IsDigit(stem[i]) || stem[i] == '_';
  }

  /** A name without '/' is its own last segment. */
  lemma {:induction false} LastSegmentOfSlashFree(s: string)
    requires '/' !in s
    ensures LastSegment(s) == s
  {
    if |s| > 0 {
      LastSegmentOfSlashFree(s[..|s| - 1]);
      assert s[..|s| - 1] + [s[|s| - 1]] == s;
    }
  }

  /** The extension of a dot-free stem that does not start with '.', followed
      by an extension, is that extension. */
  lemma SegmentExtAfterStem(stem: string, e: string)
    requires stem != [] && stem[0] != '.' && '.' !in stem
    requires e == [] || (e[0] == '.' && '.' !in e[1..])
    ensures SegmentExt(stem + e) == e
  {
    var n := stem + e;
    var d := LastIndexOf('.', n);
    if e == [] {
      assert n == stem;
      assert d == -1;
    } else {
      assert n[|stem|] == '.';
      assert forall i :: |stem| < i < |n| ==> n[i] == e[1..][i - |stem| - 1];
      assert d == |stem|;
      assert n[0] != '.';
      assert n != "..";
      assert n[d..] == e;
    }
  }

  /** Different clock or random readings never give the same name for files with
      the same extension, so the name determines the stamp it was made from. */
  lemma StoredNameInjective(a: Stamp, b: Stamp, original: string, other: string)
    requires ExtName(original) == ExtName(other)
    requires StoredName(a, original) == StoredName(b, other)
    ensures a == b
  {
    var e := ExtName(original);
    var da, ra := Decimal(a.millis), Decimal(a.random);
    var db, rb := Decimal(b.millis), Decimal(b.random);
    assert Stem(a) + e == Stem(b) + e;
    assert Stem(a) == (Stem(a) + e)[..|Stem(a)|] == (Stem(b) + e)[..|Stem(b)|] == Stem(b);
    DigitsBeforeSeparator(da, ra, db, rb);
    DecimalRoundTrip(a.millis);
    DecimalRoundTrip(b.millis);
    DecimalRoundTrip(a.random);
    DecimalRoundTrip(b.random);
  }

  /** Two all-digit strings joined by '_' split back uniquely. */
  lemma DigitsBeforeSeparator(x: string, y: string, u: string, v: string)
    requires AllDigits(x) && AllDigits(u)
    requires x + "_" + y == u + "_" + v
    ensures x == u && y == v
  {
    var w := x + "_" + y;
    assert forall i :: 0 <= i < |u| ==> w[i] == u[i];
    assert forall i :: 0 <= i < |x| ==> w[i] == x[i];
    assert w[|x|] == '_' && w[|u|] == '_';
    assert |u| <= |x|;
    assert |x| <= |u|;
    assert x == w[..|x|] == u;
    assert y == w[|x| + 1..] == v;
  }
}

=== FILE: wire.dfy ===
/** What travels between the browser and the server: files and the multipart
    form a student is submitted with. */
module Wire {
  import opened Wrappers

  newtype byte = x: int | 0 <= x < 256

  type Bytes = seq<byte>

  /** The name under which a blob is stored and which a row's `Profile` column holds.
      Every name the server generates is non-empty. */
  type FileName = s: string | s != [] witness "_"

  /** A file as the browser hands it over (a `File` object on the client side,
      multer's file part on the server side): original name, MIME type, content. */
  datatype FileBlob = FileBlob(name: string, mimeType: string, content: Bytes) {
    function Size(): nat {
      |content|
    }
  }

  /** The largest accepted image, 5 MiB, used by both the form and the upload middleware. */
  const MaxImageBytes: nat := 5 * 1024 * 1024

  /** The multipart body of `POST /add` and `POST /modify/:id`: five text fields and
      an optional `image` file. A field the body leaves out arrives as the empty string,
      which the server's truthiness checks treat exactly like `undefined`. */
  datatype Submission = Submission(
    fname: string,
    lname: string,
    email: string,
    major: string,
    address: string,
    image: Option<FileBlob>)
}

=== FILE: wrappers.dfy ===
/** The optional value used for nullable columns and optional form entries. */
module Wrappers {

  datatype Option<+T> = None | Some(value: T) {

    /** The wrapped value, or `default` when there is none (JavaScript's `x || default`
        for a value that is never falsy when present). */
    function GetOr(default: T): T {
      match this
      case Some(v) => v
      case None => default
    }
  }
}
